=== FILE: README.md ===
# foxplot core in Dafny

foxplot reads a stream of dictionaries, for example robot telemetry decoded
from JSON lines or MessagePack. It unpacks each dictionary into a tree of
time series and plots chosen series against time in an HTML page. This
project models the core of that library and proves properties of the model:

- **The tree** (`Nodes`, `Foxes`).
  - `Fox.unpack` updates the root node at step `length`.
  - `Node._update` walks a record. For every new key it creates a child:
    a `Node` for a dictionary or list, an `IndexedSeries` otherwise. Each
    child is labelled from its parent's label and its key.
  - `get_series` follows a `/`-separated label down the tree.
  - `labels` lists every leaf label, depth first.
  - The default time axis of `plot` is also modelled.
- **The series.**
  - `IndexedSeries` (`Indexed`): a read-out with no fill.
  - `Series` (`Filled`): a forward-filled read-out.
  - `HotSeries` (`Hot`): mutable, and frozen into a float64 array.
  - `FrozenSeries` (`Frozen`): the float64 array, with `+` and `*` and the
    labels they build.
- **The series functions** (`Functions`): `abs`, `std`, `low_pass_filter`
  and `estimate_lag`.
- **The plot colour picker** (`Colors`).
- **Two pieces of the HTML generator** (`Html`): the JavaScript array
  literal of a series (`__escape_null`) and the rejection of a time axis
  that contains `None`.

The Python attribute `label` is called `name` in the model, because `label`
is a Dafny keyword.

**Numbers.**
- A float64 is `NaN` or a finite real (`Floats.Float`). Sums, differences,
  products and comparisons are exact and propagate NaN as IEEE does.
- `numpy.exp`, `numpy.log`, `numpy.std`, `str` of a float and the float64
  parsing of a string are fields of a `Numerics` parameter. The model does
  not fix their values.

**Mutation and exceptions.**
- In-place mutation becomes a function that returns the new state.
- An exception becomes `Failure(error)` of `Result`. When an update raises
  halfway, it becomes `Raised(state)` of `Outcome`, and the state keeps
  whatever was already written.

## Model

| member | source | states |
|---|---|---|
| Floats.Add | foxplot/frozen_series.py:52 | a sum is NaN exactly when an operand is NaN |
| Floats.Sub | foxplot/functions.py:41 | a difference is NaN exactly when an operand is NaN |
| Floats.Mul | foxplot/frozen_series.py:61 | a product is NaN exactly when an operand is NaN |
| Floats.Div | foxplot/functions.py:116 | NaN in gives NaN out; for a finite non-zero divisor, the quotient times the divisor is the dividend |
| Floats.Neg | foxplot/functions.py:52 | `-x` is NaN exactly when `x` is; otherwise `-x + x == 0` |
| Floats.Abs | foxplot/functions.py:27 | `np.abs` keeps NaN; a finite result is non-negative and is `x` or `-x` |
| Floats.FromInt | foxplot/generate_html.py:47 | an int converts to a float of the same value exactly when its magnitude is below `2^1024 - 2^970`, and raises `OverflowError` otherwise |
| Strings.IntToString | foxplot/functions.py:158 | `str` of an int starts with a digit exactly when the int is non-negative, and with `-` exactly when it is negative |
| Strings.NatToStringRoundTrip | foxplot/functions.py:158 | the decimal digits of `n` denote `n` |
| Strings.IntToStringInjective | foxplot/functions.py:158 | different ints print differently |
| Strings.Strip | foxplot/fox.py:73 | `strip(c)` neither starts nor ends with `c` |
| Strings.StripFramed | foxplot/fox.py:73 | `strip(c)` removes only a leading and a trailing run of `c`: `s` is those `c`s, then the result, then more `c`s |
| Strings.StripNothing | foxplot/fox.py:73 | a string that neither starts nor ends with `c` is its own strip |
| Strings.StripLeading | foxplot/fox.py:73 | a leading `c` does not change the strip |
| Strings.StripTrailing | foxplot/fox.py:73 | a trailing `c` does not change the strip |
| Strings.Split | foxplot/fox.py:73 | `split(c)` gives at least one piece, and no piece contains `c` |
| Strings.JoinSplit | foxplot/fox.py:73 | joining the pieces of `split(c)` with `c` gives back the string |
| Strings.SplitJoin | foxplot/fox.py:73 | splitting a join of pieces that contain no `c` gives back the pieces |
| Values.Items | foxplot/node.py:85-89 | a dictionary yields its items in insertion order; a list yields `enumerate` pairs keyed by position; every value is smaller than the record |
| Values.ListItemsDistinct | foxplot/node.py:88 | the positions of a list never repeat |
| Indexed.New | foxplot/indexed_series.py:29-36 | a new series has the given label and no data |
| Indexed.Update | foxplot/indexed_series.py:54-55 | the written step joins the keys and holds the value; every other step and the label are unchanged |
| Indexed.Get | foxplot/indexed_series.py:48-49 | the read-out has `n` entries: the written value at a written step, `None` elsewhere |
| Indexed.ListLabels | foxplot/indexed_series.py:51-52 | a leaf lists exactly its own label |
| Indexed.LastWriteWins | foxplot/indexed_series.py:54-55 | a second write at the same step replaces the first |
| Indexed.GetAfterUpdate | foxplot/indexed_series.py:48-55 | a write at step `i` changes entry `i` of every read-out that reaches it, and nothing else |
| Indexed.NoFill | foxplot/indexed_series.py:48-49 | an entry is `None` exactly when nothing, or `None`, was written at that step |
| Filled.LastWrite | foxplot/series.py:66-70 | the latest written step at or before `i`, with no write between it and `i`; or no write at all up to `i` |
| Filled.FillFrom | foxplot/series.py:66-71 | the loop that carries `last_value` yields, at every step, the value of the latest write at or before it |
| Filled.Get | foxplot/series.py:56-71 | `n` entries; `None` before the first write; the written value at a written step; otherwise the previous entry repeated |
| Filled.FillUnique | foxplot/series.py:56-71 | the three facts of `Get` determine the read-out: any sequence that satisfies them is the read-out |
| Filled.NoneResets | foxplot/series.py:69 | after an explicit `None` write, entries are `None` until the next write |
| Filled.Len | foxplot/series.py:47-49 | the length is the number of distinct written steps |
| Filled.Update | foxplot/series.py:81-88 | the written step holds the value; every other step and the label are unchanged |
| Filled.LenAfterUpdate | foxplot/series.py:81-88 | a write at a new step adds one to the length; an overwrite keeps it |
| Hot.Update | foxplot/hot_series.py:44-51 | the written step holds the value; every other step and the label are unchanged |
| Hot.Len | foxplot/hot_series.py:35-37 | the length is the number of distinct written steps |
| Hot.LenAfterUpdate | foxplot/hot_series.py:35-51 | a write at a new step adds one to the length; an overwrite keeps it |
| Hot.ToFloat | foxplot/hot_series.py:68 | float64 conversion of one element: `None` becomes NaN, a bool 1.0 or 0.0, a float itself. An int keeps its value exactly when its magnitude is below `2^1024 - 2^970`; a larger int has no conversion (`OverflowError`). A dict has no conversion, and neither does a list in this one-dimensional model |
| Hot.ToArray | foxplot/hot_series.py:68 | converting a list succeeds exactly when every element converts, and then converts each element in place |
| Hot.Freeze | foxplot/hot_series.py:53-68 | `_freeze(n)` succeeds exactly when every filled entry converts. It keeps the label and has `n` values: NaN before the first write, the converted write at a written step, otherwise the previous value |
| Hot.FreezeIgnoresLaterWrites | foxplot/hot_series.py:63-68 | writes at step `n` or later do not change `_freeze(n)`, not even an unconvertible one |
| Frozen.Len | foxplot/frozen_series.py:37-39 | the length is the number of values |
| Frozen.CommonPrefix | foxplot/frozen_series.py:17 | a prefix of both labels that cannot be extended by one more character |
| Frozen.CommonPrefixLongest | foxplot/frozen_series.py:17 | every common prefix of the two labels is a prefix of `CommonPrefix` |
| Frozen.OperatorLabel | foxplot/frozen_series.py:16-19 | the label is `p(a' op b')`, where `p` is a maximal common prefix and `a'`, `b'` are the remainders |
| Frozen.OperatorLabelUnique | foxplot/frozen_series.py:16-19 | only one prefix has that shape, so the operator label is determined by the two labels |
| Frozen.OperatorLabelNoPrefix | tests/test_series.py:33 | labels with different first characters give `(a op b)` |
| Frozen.OperatorLabelNotPathAware | foxplot/frozen_series.py:17 | the prefix is taken character by character: `/x/ab + /x/ac` is labelled `/x/a(b + c)` |
| Frozen.Zip | foxplot/frozen_series.py:52 | an element-wise operation succeeds exactly when the shapes broadcast; it applies the operation position by position, repeating a length-one operand |
| Frozen.Plus | foxplot/frozen_series.py:45-52 | `+` succeeds exactly when the shapes broadcast; the label is the `+` operator label; equal lengths give element-wise sums |
| Frozen.Times | foxplot/frozen_series.py:54-61 | `*` succeeds exactly when the shapes broadcast; the label is the `*` operator label; equal lengths give element-wise products |
| Frozen.OperandsCommute | foxplot/frozen_series.py:45-61 | swapping the operands of `+` or `*` leaves the values unchanged |
| Nodes.Put | foxplot/node.py:98 | storing a child binds the key; a new key goes to the end of the iteration order, an existing key keeps its place |
| Nodes.PutOrdered | foxplot/node.py:98 | after storing a child, the iteration order still lists every key exactly once |
| Nodes.Fresh | foxplot/node.py:94-97 | a new child is a node exactly for a dict or list value, otherwise an empty indexed series; its label is the parent's label, a `/` unless the parent's label ends in one, then the key |
| Nodes.Update | foxplot/node.py:78-99 | an update keeps the node's kind and label; a leaf stores the value; a branch given a value that is neither a dict nor a list raises and is unchanged |
| Nodes.UpdateItems | foxplot/node.py:90-99 | the loop over the items leaves a branch under the same label, whether it completes or raises; `Nodes.ItemsKeep`, `Nodes.ItemsUntouched`, `Nodes.ItemsCover` and `Nodes.ItemsDeliver` state what it does to the children |
| Nodes.ChildApplies | foxplot/node.py:99 | the loop updates each child with its own value, by `_update` itself |
| Nodes.ItemsKeep | foxplot/node.py:90-99 | whether the loop completes or raises, existing children keep their key and kind, and the iteration order only grows at its end |
| Nodes.ItemsUntouched | foxplot/node.py:90-99 | children whose key is not in the record are untouched, and every new key comes from the record |
| Nodes.ItemsCover | foxplot/node.py:90-99 | a completed loop leaves a child for every key of the record |
| Nodes.ItemsDeliver | foxplot/node.py:90-99 | after a completed loop, the child under each key is that key's old (or fresh) child updated with that key's value |
| Nodes.UpdateValid | foxplot/node.py:78-99 | an update at a step below the bound keeps the tree well formed, even when it raises halfway. Well formed means: the order lists each key once, every child's label is built from its parent's label and its key, and every stored step is below the bound |
| Nodes.UpdateBranch | foxplot/node.py:78-99 | all of the above for one branch update by a dict or list, in one statement |
| Nodes.GetChild | foxplot/node.py:56-67 | an empty key list raises (`IndexError`); a first key the node lacks raises (`KeyError`); a leaf has no `_get_child`; a success needs a first key that is present |
| Nodes.GetChildIsLookup | foxplot/node.py:56-67 | `_get_child(keys)` returns a series exactly when the keys are non-empty and, read as dictionary keys, lead to that indexed-series leaf |
| Nodes.LookupLabel | foxplot/node.py:94-97 | in a well-formed tree, the label of the node a path reaches is built from the root label and the keys of the path |
| Nodes.PathLabelFromRoot | foxplot/node.py:94-97 | under the root `/`, a path of non-empty keys that do not end in `/` is labelled `/` followed by the keys joined by `/` |
| Nodes.ListLabels | foxplot/node.py:69-76 | a leaf of either kind lists exactly its own label; for a branch, `Nodes.ListFrom` and the two reachability lemmas below state which labels it lists |
| Nodes.ListFrom | foxplot/node.py:72-76 | a label is listed from position `j` of the key order on exactly when a child at position `j` or later, under a string key not starting with `_`, lists it |
| Nodes.ListedIsReachable | foxplot/node.py:69-76 | every label that `_list_labels` returns belongs to a leaf reachable through string keys that do not start with `_` |
| Nodes.ReachableIsListed | foxplot/node.py:69-76 | in a well-formed tree, every leaf reachable through such keys has its label listed |
| Foxes.TimeName | foxplot/fox.py:179 | `set_time` keeps a label as given and takes a series' own label |
| Foxes.SetTime | foxplot/fox.py:173-180 | only the time label changes |
| Foxes.New | foxplot/fox.py:43-61 | the data is an empty root labelled `/`, the length is 0, and the time label is set if one is given |
| Foxes.Unpack | foxplot/fox.py:182-189 | the root is updated at step `length`; the length grows by one when the update completes and stays the same when it raises |
| Foxes.UnpackAll | foxplot/fox.py:182-189 | unpacking `k` records that all complete adds `k` to the length and keeps the time label |
| Foxes.UnpackAllLast | foxplot/fox.py:188-189 | an appended record is unpacked once more after the others, unless an earlier record raised |
| Foxes.NewValid | foxplot/fox.py:54-57 | a new `Fox` satisfies the invariant |
| Foxes.UnpackValid | foxplot/fox.py:182-189 | `unpack` keeps the invariant (the root is `/`, the tree is well formed, steps are at most `length`), whether it completes or raises |
| Foxes.UnpackAllValid | foxplot/fox.py:182-189 | any sequence of records keeps the invariant |
| Foxes.PathOf | foxplot/fox.py:73 | a label gives at least one key, and no key contains `/` |
| Foxes.GetSeries | foxplot/fox.py:63-76 | a series that `get_series` returns is the leaf the label's keys lead to, and a label whose keys lead to an indexed-series leaf returns that leaf; `Foxes.GetSeriesIsLookup` states the two together as one if-and-only-if |
| Foxes.GetSeriesIsLookup | foxplot/fox.py:63-74 | `get_series` finds exactly the indexed series that the label's keys lead to, as dictionary keys |
| Foxes.GetSeriesSlashes | foxplot/fox.py:73 | a leading or trailing `/` does not change what `get_series` finds |
| Foxes.GetSeriesLabel | foxplot/fox.py:63-74 | in a valid `Fox`, a series found by a label with no empty segment is labelled `/` followed by the stripped label |
| Foxes.PathOfJoin | foxplot/fox.py:73 | reading `/k1/k2/..` back as keys gives `k1, k2, ..` when the keys are non-empty and `/`-free |
| Foxes.Labels | foxplot/fox.py:77-79 | `labels` is what the root node lists; `Foxes.LabelsRoundTrip` states that each of those labels leads back through `get_series` to its series |
| Foxes.LabelsRoundTrip | foxplot/fox.py:63-79 | every label `labels` lists leads back through `get_series` to a series with that label, when the keys are non-empty and `/`-free |
| Foxes.LeafPath | foxplot/fox.py:63-74 | a leaf reached by non-empty, `/`-free dictionary keys is what `get_series` returns for those keys joined by `/` |
| Foxes.SegmentIsNotPosition | foxplot/fox.py:73-74 | a list record creates a child under position `0`, but `get_series("/0")` raises: a path segment is a string and never matches a list position |
| Foxes.PlotTimes | foxplot/fox.py:102-108 | a time given to `plot` is set on the `Fox` with `set_time` and stays there, even when reading the axis then raises; data and length are unchanged. The axis is the time series read out over `length` steps when a time label is set; otherwise it is `0.0, 1.0, ..` |
| Foxes.PlotKeepsTime | foxplot/fox.py:102-108 | a later `plot()` without a time draws the same axis as the `plot(time=..)` before it, or raises the same error |
| Functions.Absolute | foxplot/functions.py:17-28 | the label is `abs(..)`; the length is kept; NaN stays NaN; a finite value becomes its magnitude |
| Functions.AbsoluteTwice | foxplot/functions.py:26-27 | `abs` of `abs` has the same values, under the label `abs(abs(..))` |
| Functions.Windows | foxplot/functions.py:160 | `sliding_window_view` gives `n - w + 1` windows of width `w`; each one starts at its own position |
| Functions.Std | foxplot/functions.py:147-163 | `std` succeeds exactly when `0 <= w <= n`; otherwise it raises. It gives `n - w + 1` values, each the `numpy.std` of one window, under the label `std(label, w)` |
| Functions.StdLabelInjective | foxplot/functions.py:158 | two `std` labels of the same series are equal only for the same width |
| Functions.StdWholeSeries | foxplot/functions.py:159-162 | a window as wide as the series gives the single value `numpy.std` of the whole series |
| Functions.FilterFrom | foxplot/functions.py:40-54 | the loop succeeds exactly when no checked step reads past the input, and then gives one value per step; a step that fails the sampling check gives NaN |
| Functions.LowPassFilter | foxplot/functions.py:31-56 | `low_pass_filter` succeeds exactly when input and time are non-empty and of equal length. An empty input is an `IndexError`; other length mismatches within one step are an `AssertionError`. On success: the label, one value per time, the first input first, NaN where the sampling check fails |
| Functions.FilterFromState | foxplot/functions.py:40-54 | every value of the loop is the reference running output (or NaN where the sampling check fails) |
| Functions.LowPassIsState | foxplot/functions.py:31-56 | every output of the filter is the reference running output: it starts at the first input and blends in `input[j]` by `1 - exp(-dt/T)` at each step that passes the sampling check |
| Functions.ConstantInputIsFixed | foxplot/functions.py:52-53 | a constant input is a fixed point of the running output (finite times, finite `exp`, non-zero `T`) |
| Functions.StateStaysNaN | foxplot/functions.py:53 | once the running output is NaN it stays NaN |
| Functions.LowPassNaNTimeConstant | foxplot/functions.py:40-54 | a NaN time constant passes every sampling check and makes every output after the first NaN |
| Functions.Read | foxplot/functions.py:109-131 | an `x·x` below `1e-10`, or a slope `x·y / x·x` below `1e-10`, gives NaN in all three columns. Otherwise the slope is `x·y / x·x` and the lag is `-dt / log(1 - slope)`. A finite slope comes from a finite `x·x` of at least `1e-10`. With finite values, the fitting error is the regression residual `y·y - slope·x·y` times `1 - exp(-dt/T)`. A NaN `x·x` gives no slope |
| Functions.LagStep | foxplot/functions.py:100-131 | a checked step raises exactly when it reads past `input` or `output`. A NaN in `dt`, `x` or `y` leaves the accumulator untouched and records NaN in all three columns. Otherwise the accumulator is decayed by `exp(-dt/T)`, the products `x·x`, `x·y` and `y·y` are added, and the estimate is read from the result. A recorded slope is at least `1e-10` |
| Functions.LagFrom | foxplot/functions.py:86-131 | the loop succeeds exactly when no checked step reads past `input` or `output`. It gives one estimate per step, none where the sampling check fails, and every slope at least `1e-10` |
| Functions.EstimateLagAll | foxplot/functions.py:80-131 | the series are as long as the time series (at least one entry); the first entry is NaN; NaN where the sampling check fails; every finite slope is at least `1e-10` |
| Functions.LagFromAcc | foxplot/functions.py:86-131 | the loop from index `i`, started from the reference accumulator after `i` steps, records exactly the reference estimates of steps `i`, `i + 1`, .. |
| Functions.EstimateLagIsAcc | foxplot/functions.py:81-131 | every estimate after the first is the reference estimate. The accumulator starts at zero and is never reset. A step that fails the sampling check or reads a NaN leaves it as it is; every other step decays it and adds the step's products |
| Functions.DotsNonNegative | foxplot/functions.py:109-110 | with a non-negative `exp`, the decayed `x·x` and `y·y` never go negative |
| Functions.EstimateLag | foxplot/functions.py:59-144 | `estimate_lag` succeeds exactly when no checked step reads past `input` or `output`; otherwise it raises `IndexError`. It returns a node labelled `lag(input=.., output=..)` with the children `fitting_error`, `lag` and `slope`, in that order. Each child is a frozen series labelled `<label>/<key>`, with one value per time step (at least one) and NaN first. Entry `j` of each is that column of estimate `j`, and every finite slope is at least `1e-10` |
| Functions.LagNodeChildLabels | foxplot/functions.py:132-143 | each child of the returned node is labelled `<label>/<key>`, the label the tree gives a child |
| Functions.LagNodeListed | foxplot/functions.py:132-143 | the returned node lists exactly three labels: `<label>/fitting_error`, `<label>/lag` and `<label>/slope`, in that order |
| Functions.EstimateLagNaNTimeConstant | foxplot/functions.py:86-131 | with a NaN time constant every estimate is NaN |
| Colors.Reset | foxplot/color_picker.py:55-57 | `reset` goes back to the first colour |
| Colors.New | foxplot/color_picker.py:41-43 | a new picker starts at the first colour |
| Colors.GetNextColor | foxplot/color_picker.py:45-53 | `get_next_color` succeeds exactly while the position is inside the palette; it returns the colour there and moves on by one, and raises `IndexError` past the end |
| Colors.DrawRuns | foxplot/color_picker.py:45-53 | `k` calls return the next `k` palette colours in order while they last, and fail as soon as one would run past the end |
| Colors.KthColor | foxplot/color_picker.py:26-53 | call `k` on a new picker returns palette colour `k`, for `k` up to 12 |
| Colors.PaletteDistinct | foxplot/color_picker.py:26-39 | the twelve colours are pairwise different |
| Colors.ResetRepeatsFirst | tests/test_color_picker.py:28-35 | after `reset`, the next colour is the first colour of a new picker |
| Colors.ThirteenthCallFails | foxplot/color_picker.py:51-52 | twelve calls succeed and the thirteenth raises |
| Colors.NextColorCircular | foxplot/color_picker.py:24 | the circular picker returns colour `next mod 12`, and agrees with `get_next_color` inside the palette |
| Colors.DrawCircularCycles | foxplot/color_picker.py:18-24 | with wrap-around, `k` calls always succeed, and call `i` returns colour `(next + i) mod 12` |
| Html.Token | foxplot/generate_html.py:42-50 | one element's text fails exactly for an int too large for a float64, whose `isnan` raises `OverflowError`; what the other kinds print is stated by `Html.BoolPrintsAsInt`, `Html.NaNPrintsAsNull`, `Html.StringsVerbatim`, `Html.CompositePrintsAsNull` and `Html.PlainToken` |
| Html.EscapeNull | foxplot/generate_html.py:30-55 | the literal exists exactly when no element is an int too large for a float64 (otherwise `OverflowError`), and it is bracketed; an empty series gives `[]` |
| Html.LargeIntRaises | foxplot/generate_html.py:42-50 | a single int of magnitude `2^1024 - 2^970` or more makes the whole literal raise `OverflowError` |
| Html.NaNPrintsAsNull | foxplot/generate_html.py:47-50 | NaN prints as `null`, exactly like `None` |
| Html.BoolPrintsAsInt | foxplot/generate_html.py:44-45 | booleans print as the integers 1 and 0 |
| Html.StringsVerbatim | foxplot/generate_html.py:48-49 | a series of strings prints as those strings themselves, unquoted and unescaped, joined by `, ` inside brackets |
| Html.CompositePrintsAsNull | foxplot/generate_html.py:50 | a dict or a list prints as `null`, exactly like `None` |
| Html.PlainToken | foxplot/generate_html.py:44-50 | `None` and an int below `2^1024 - 2^970` in magnitude print as a non-empty token without comma or space, and that token reads back as the element |
| Html.EscapeRoundTrip | foxplot/generate_html.py:40-55 | for a series of `None`s and of ints that have a float64, the literal exists and a JavaScript reader of it gets the series back |
| Html.CheckTime | foxplot/generate_html.py:83-84 | the time axis is accepted exactly when it holds no `None` |
| Html.DefaultAxisPasses | foxplot/fox.py:104-108 | with no time label, the default axis `0.0, 1.0, ..` is always accepted |
| Html.RecordedAxisPasses | foxplot/generate_html.py:83-84 | a recorded time series is accepted exactly when every step so far has a value other than `None` |

## Left out

- Reading input: `decode.py`, the decoders, `Fox.read_from_file` and the `from_file` argument of `Fox`. These are file and stream I/O. The model starts from decoded records (`Values.Value`).
- The HTML page itself: the template, the uPlot resources and opening the browser. `Fox.plot` after its time axis is left out too, including its call to `generate_html`, whose arguments do not match the signature in `generate_html.py`. Only `__escape_null` and the `None` check are modelled.
- The command-line interface, `spdlog.py`, `write_tmpfile.py` and `labeled_series.py`. They are not part of this model.
- `logging.warn` for the Nyquist-Shannon check. It is output only; the NaN appended after it is modelled.
- Float rounding and the infinities. A non-zero number divided by zero is NaN in the model, where IEEE gives an infinity.
- The values of `numpy.exp`, `numpy.log`, `numpy.std`, `str` of a float and float parsing. They are parameters (`Numerics`).
- Nodes.Update: a `str` fed to an existing branch is modelled as raising. `enumerate` would iterate its characters and store them under positions.
- Nodes.Update: a frozen leaf ignores updates. It only occurs in the node that `estimate_lag` returns, which is never unpacked into.
- Exception types and messages collapse into `Common.Error` values. This covers `KeyError`, `IndexError`, `TypeError`, `ValueError`, `AssertionError` and `FoxplotException`.
- A record key `_Node__label` would overwrite a node's private label in its `__dict__`. The model keeps the label apart from the children.
- Dictionary keys are strings and list positions are integers. A decoded dictionary with integer keys, which MessagePack allows, is not modelled.
- `Node.__getitem__` and the `__repr__` methods are left out: presentation only.
- The tests exercise a newer `Series` API with times, `low_pass_filter(cutoff_period)` and method forms. The model follows the code in `frozen_series.py` and `functions.py`, not the tests.
- Functions.EstimateLagAll: follows the code, not the algorithm's description. The accumulator is not reset after a skipped step, and a slope of 1 or more is not rejected before `log(1 - slope)`; `Functions.AccAt` states this reference behaviour. The lag is stated only through `numpy.log`, which is a parameter.
- Hot.ToArray: numpy stacks a read-out whose entries are all lists of one shape into a two-dimensional array, and `_freeze` then succeeds. The model is one-dimensional and fails on any list entry.
- Hot.Freeze: fails on a read-out of same-shape lists, which `_freeze` turns into a two-dimensional `FrozenSeries`. The rest of the core only handles one-dimensional series.
- Html.EscapeNull: strings are inserted verbatim, so the literal can be `[]` for a non-empty series (`[""]`). Only the empty-series direction is stated.
- Html.EscapeRoundTrip: covers series of `None` and of ints that have a float64 only. Floats print through `str`, which is a parameter.
- Nodes.GetChild: its own contract states the error cases only. `Nodes.GetChildIsLookup` states what a success returns.

## Findings

| source | as written | input that shows it | evidently intended | confidence | as-written member | corrected member |
|---|---|---|---|---|---|---|
| foxplot/color_picker.py:51-52 | `get_next_color` indexes `COLORS` with a counter that only grows and is never wrapped | a thirteenth `get_next_color` without a `reset` raises `IndexError` (for example, plotting thirteen series) | the "circular list" of the module and class docstrings (lines 18 and 24): the thirteenth call returns `red` again | high, not executed | Colors.ThirteenthCallFails | Colors.DrawCircularCycles |

=== FILE: color_picker.dfy ===
/** The plot colour picker: a fixed palette handed out in order, one colour
    per call, back to the start on reset. */
module Colors {
  import opened Common

  /** The palette, in the order the picker hands it out. */
  const Palette: seq<string> := [
    "red", "green", "blue", "magenta", "orange", "cyan", "purple", "lime",
    "#AABBCC", "#BBAACC", "#CCBBAA", "#AABBAA"
  ]

  /** `next` is the position of the colour the next call returns. */
  datatype ColorPicker = ColorPicker(next: nat)

  /** `reset`: back to the first colour. */
  function Reset(p: ColorPicker): (r: ColorPicker)
    ensures r.next == 0
  {
    ColorPicker(0)
  }

  /** `ColorPicker()`: the constructor resets. */
  function New(): (r: ColorPicker)
    ensures r.next == 0
  {
    Reset(ColorPicker(0))
  }

  /** `get_next_color`: the colour at the current position, and the position
      moved on by one; past the end of the palette, an `IndexError`. */
  function GetNextColor(p: ColorPicker): (r: Result<(string, ColorPicker)>)
    ensures r.Success? <==> p.next < |Palette|
    ensures r.Failure? ==> r.error == IndexOutOfRange
    ensures r.Success? ==> r.value.0 == Palette[p.next] && r.value.1.next == p.next + 1
  {
    if p.next < |Palette| then Success((Palette[p.next], ColorPicker(p.next + 1)))
    else Failure(IndexOutOfRange)
  }

  /** `k` calls in a row: the colours returned, and the picker after them. */
  function Draw(p: ColorPicker, k: nat): Result<(seq<string>, ColorPicker)>
    decreases k
  {
    if k == 0 then Success(([], p))
    else
      var first :- GetNextColor(p);
      var rest :- Draw(first.1, k - 1);
      Success(([first.0] + rest.0, rest.1))
  }

  /** One call, then the rest of the run. */
  lemma DrawStep(p: ColorPicker, k: nat)
    requires k > 0 && p.next < |Palette|
    ensures var rest := Draw(ColorPicker(p.next + 1), k - 1);
      Draw(p, k) == if rest.Failure? then Failure(rest.error)
                    else Success(([Palette[p.next]] + rest.value.0, rest.value.1))
  {
    assert GetNextColor(p) == Success((Palette[p.next], ColorPicker(p.next + 1)));
  }

  lemma PaletteSliceCons(i: nat, k: nat)
    requires 0 < k && i + k <= |Palette|
    ensures [Palette[i]] + Palette[i + 1..i + k] == Palette[i..i + k]
  {
  }

  /** `k` calls from position `next` return the next `k` colours of the
      palette while they last, and fail as soon as one would run past it. */
  lemma DrawRuns(p: ColorPicker, k: nat)
    ensures p.next + k <= |Palette| ==> Draw(p, k) == Success((Palette[p.next..p.next + k], ColorPicker(p.next + k)))
    ensures k > 0 && p.next + k > |Palette| ==> Draw(p, k) == Failure(IndexOutOfRange)
  {
    if p.next + k <= |Palette| {
      DrawWithin(p, k);
    } else if k > 0 {
      DrawPast(p, k);
    }
  }

  lemma {:induction false} DrawWithin(p: ColorPicker, k: nat)
    requires p.next + k <= |Palette|
    ensures Draw(p, k) == Success((Palette[p.next..p.next + k], ColorPicker(p.next + k)))
    decreases k
  {
    if k == 0 {
      assert Palette[p.next..p.next] == [];
    } else {
      var q := ColorPicker(p.next + 1);
      var rest := Draw(q, k - 1);
      assert rest == Success((Palette[p.next + 1..p.next + k], ColorPicker(p.next + k))) by {
        DrawWithin(q, k - 1);
        assert q.next + (k - 1) == p.next + k;
      }
      assert Draw(p, k) == Success(([Palette[p.next]] + rest.value.0, rest.value.1)) by {
        DrawStep(p, k);
      }
      PaletteSliceCons(p.next, k);
    }
  }

  lemma {:induction false} DrawPast(p: ColorPicker, k: nat)
    requires k > 0 && p.next + k > |Palette|
    ensures Draw(p, k) == Failure(IndexOutOfRange)
    decreases k
  {
    if p.next >= |Palette| {
      assert GetNextColor(p) == Failure(IndexOutOfRange);
    } else {
      DrawStep(p, k);
      DrawPast(ColorPicker(p.next + 1), k - 1);
    }
  }

  /** The `k`-th call on a new picker returns the `k`-th colour of the
      palette, for the twelve calls the palette lasts. */
  lemma KthColor(k: nat)
    requires 1 <= k <= |Palette|
    ensures var r := Draw(New(), k);
      r.Success? && |r.value.0| == k && r.value.0[k - 1] == Palette[k - 1]
  {
    DrawRuns(New(), k);
  }

  /** The colours are pairwise different, so calls within one pass of the
      palette never repeat a colour. */
  lemma PaletteDistinct()
    ensures forall i, j :: 0 <= i < j < |Palette| ==> Palette[i] != Palette[j]
  {
    forall i, j | 0 <= i < j < |Palette| ensures Palette[i] != Palette[j] {
      if i >= 8 {
        assert Palette[i][1] != Palette[j][1] || Palette[i][5] != Palette[j][5];
      } else {
        assert |Palette[i]| != |Palette[j]| || Palette[i][0] != Palette[j][0];
      }
    }
  }

  /** After `reset`, whatever came before, the next colour is the first
      colour a new picker returns. */
  lemma ResetRepeatsFirst(p: ColorPicker)
    ensures GetNextColor(Reset(p)) == GetNextColor(New())
    ensures GetNextColor(New()).Success? && GetNextColor(New()).value.0 == Palette[0]
  {
  }

  /** The thirteenth call without a reset fails: the palette does not wrap
      around. */
  lemma ThirteenthCallFails()
    ensures Draw(New(), 12).Success?
    ensures Draw(New(), 13) == Failure(IndexOutOfRange)
  {
    DrawRuns(New(), 12);
    DrawRuns(New(), 13);
  }

  // ---------------------------------------------------------------- circular

  /** The picker the documentation describes: the palette read as a
      circular list, so a call never fails. */
  function NextColorCircular(p: ColorPicker): (r: (string, ColorPicker))
    ensures r.0 == Palette[p.next % |Palette|] && r.1.next == p.next + 1
    ensures p.next < |Palette| ==> GetNextColor(p) == Success(r)
  {
    (Palette[p.next % |Palette|], ColorPicker(p.next + 1))
  }

  function DrawCircular(p: ColorPicker, k: nat): seq<string>
    decreases k
  {
    if k == 0 then [] else var c := NextColorCircular(p); [c.0] + DrawCircular(c.1, k - 1)
  }

  lemma {:induction false} DrawCircularLength(p: ColorPicker, k: nat)
    ensures |DrawCircular(p, k)| == k
    decreases k
  {
    if k > 0 {
      DrawCircularLength(ColorPicker(p.next + 1), k - 1);
    }
  }

  /** Call `i` of a circular run from `p` returns colour `(next + i) mod 12`. */
  lemma {:induction false} DrawCircularAt(p: ColorPicker, k: nat, i: nat)
    requires i < k
    ensures |DrawCircular(p, k)| == k && DrawCircular(p, k)[i] == Palette[(p.next + i) % |Palette|]
    decreases i
  {
    DrawCircularLength(p, k);
    if i > 0 {
      var q := ColorPicker(p.next + 1);
      var j := (p.next + i) % |Palette|;
      assert DrawCircular(q, k - 1)[i - 1] == Palette[j] by {
        DrawCircularAt(q, k - 1, i - 1);
        assert q.next + (i - 1) == p.next + i;
      }
      assert DrawCircular(p, k)[i] == DrawCircular(q, k - 1)[i - 1] by {
        assert DrawCircular(p, k) == [Palette[p.next % |Palette|]] + DrawCircular(q, k - 1);
      }
    }
  }

  /** With wrap-around, any number of calls succeeds and call `i` returns
      colour `(n + i) mod 12`. */
  lemma DrawCircularCycles(p: ColorPicker, k: nat)
    ensures |DrawCircular(p, k)| == k
    ensures forall i :: 0 <= i < k ==> DrawCircular(p, k)[i] == Palette[(p.next + i) % |Palette|]
  {
    DrawCircularLength(p, k);
    forall i | 0 <= i < k ensures DrawCircular(p, k)[i] == Palette[(p.next + i) % |Palette|] {
      DrawCircularAt(p, k, i);
    }
  }
}

=== FILE: common.dfy ===
/** Failure-compatible wrappers shared by every part of the model. */
module Common {

  datatype Option<+T> = None | Some(value: T)

  /** The reasons an operation of the library can stop with an exception.
      These name the cause, not the Python exception class. */
  datatype Error =
    | MissingKey          // a dictionary lookup found no entry for the key
    | NotANode            // a path continued below a leaf
    | NotIndexedSeries    // a path ended on something that is not an indexed series
    | EmptyPath           // `_get_child` was given no key at all
    | ShapeMismatch       // two arrays could not be broadcast together
    | NotConvertible      // a value has no float64 conversion
    | IndexOutOfRange     // a list or array was indexed past its end
    | AssertionFailed     // an `assert` statement of the library failed
    | InvalidWindow       // a rolling window larger than the data, or negative
    | NoneInTime          // a time axis holding `None`
    | TooLarge            // an int too large to convert to a float

  datatype Result<+T> = Success(value: T) | Failure(error: Error) {
    predicate IsFailure() { Failure? }
    function PropagateFailure<U>(): Result<U>
      requires Failure?
    {
      Failure(error)
    }
    function Extract(): T
      requires Success?
    {
      value
    }
  }

  /** The outcome of an in-place update that may raise halfway: in both
      cases `state` is what the mutations performed so far left behind. */
  datatype Outcome<+T> = Completed(state: T) | Raised(state: T)
}

=== FILE: floats.dfy ===
/** float64 values as the library sees them: a real number or NaN.
    Rounding and the infinities are not represented. */
module Floats {
  import opened Common

  datatype Float = NaN | Fin(r: real)

  /** The threshold `1e-10` of the lag estimator. */
  const Eps: Float := Fin(0.0000000001)

  function Add(a: Float, b: Float): (r: Float)
    ensures r.NaN? <==> a.NaN? || b.NaN?
  {
    if a.Fin? && b.Fin? then Fin(a.r + b.r) else NaN
  }

  function Sub(a: Float, b: Float): (r: Float)
    ensures r.NaN? <==> a.NaN? || b.NaN?
  {
    if a.Fin? && b.Fin? then Fin(a.r - b.r) else NaN
  }

  function Mul(a: Float, b: Float): (r: Float)
    ensures r.NaN? <==> a.NaN? || b.NaN?
  {
    if a.Fin? && b.Fin? then Fin(a.r * b.r) else NaN
  }

  /** IEEE division gives an infinity for a non-zero numerator over zero;
      with no infinities in the model, every division by zero is NaN. */
  function Div(a: Float, b: Float): (r: Float)
    ensures a.NaN? || b.NaN? ==> r.NaN?
    ensures a.Fin? && b.Fin? && b.r != 0.0 ==> r.Fin? && r.r * b.r == a.r
  {
    if a.Fin? && b.Fin? && b.r != 0.0 then Fin(a.r / b.r) else NaN
  }

  function Neg(a: Float): (r: Float)
    ensures r.NaN? <==> a.NaN?
    ensures a.Fin? ==> r.r + a.r == 0.0
  {
    if a.Fin? then Fin(-a.r) else NaN
  }

  function Abs(a: Float): (r: Float)
    ensures r.NaN? <==> a.NaN?
    ensures a.Fin? ==> r.r >= 0.0 && (r.r == a.r || r.r == -a.r)
  {
    if a.Fin? then Fin(if a.r < 0.0 then -a.r else a.r) else NaN
  }

  /** The smallest magnitude of a Python int that has no float64,
      `2^1024 - 2^970`: it is halfway between the largest float64,
      `2^1024 - 2^971`, and `2^1024`, and rounds (to even) up to the
      latter. */
  const IntLimit: int := 179769313486231580793728971405303415079934132710037826936173778980444968292764750946649017977587207096330286416692887910946555547851940402630657488671505820681908902000708383676273854845817711531764475730270069855571366959622842914819860834936475292719074168444365510704342711559699508093042880177904174497792

  /** Python's conversion of an int to a float, as `float()` and
      `math.isnan` perform it: `OverflowError` (here `None`) from
      `IntLimit` on, the value itself below. */
  function FromInt(i: int): (r: Option<Float>)
    ensures r.Some? <==> -IntLimit < i < IntLimit
    ensures r.Some? ==> r.value == Fin(i as real)
  {
    if -IntLimit < i < IntLimit then Some(Fin(i as real)) else None
  }

  /** Python's `a < b` on floats: false as soon as either side is NaN. */
  predicate Lt(a: Float, b: Float)
  {
    a.Fin? && b.Fin? && a.r < b.r
  }

  /** The numerical routines the library borrows from NumPy and Python,
      taken as parameters: their values are not part of the model. */
  datatype Numerics = Numerics(
    exp: Float -> Float,             // numpy.exp
    log: Float -> Float,             // numpy.log
    std: seq<Float> -> Float,        // numpy.std of one window
    show: Float -> string,           // str() of a float
    parse: string -> Option<Float>   // float64 conversion of a string
  )

  /** exp and log turn NaN into NaN, as their IEEE versions do. */
  predicate NaNStrict(nm: Numerics)
  {
    nm.exp(NaN) == NaN && nm.log(NaN) == NaN
  }
}

=== FILE: fox.dfy ===
/** The front end: a root branch labelled `/`, a step counter, an optional
    time label, and the path syntax used to reach a series. */
module Foxes {
  import opened Common
  import opened Floats
  import opened Strings
  import opened Values
  import opened Nodes
  import Indexed

  /** What `set_time` accepts: a label, or a series whose label is used. */
  datatype TimeArg = TimeLabel(text: string) | TimeSeries(series: Indexed.IndexedSeries)

  /** `data` is the root of the tree, `length` the number of records
      unpacked so far, `time` the label of the time series. */
  datatype Fox = Fox(time: Option<string>, data: Node, length: nat)

  /** The label `set_time` stores for its argument. */
  function TimeName(t: TimeArg): (r: string)
    ensures t.TimeLabel? ==> r == t.text
    ensures t.TimeSeries? ==> r == t.series.name
  {
    match t
    case TimeLabel(text) => text
    case TimeSeries(s) => s.name
  }

  /** `set_time`: only the time label changes. */
  function SetTime(f: Fox, t: TimeArg): (r: Fox)
    ensures r.time == Some(TimeName(t))
    ensures r.data == f.data && r.length == f.length
  {
    f.(time := Some(TimeName(t)))
  }

  /** `Fox(time=..)`: an empty root labelled `/`, no record yet, and the
      time label if one is given. */
  function New(time: Option<TimeArg>): (f: Fox)
    ensures f.length == 0
    ensures f.data == Branch("/", map[], [])
    ensures time.None? ==> f.time.None?
    ensures time.Some? ==> f.time == Some(TimeName(time.value))
  {
    var f := Fox(None, Branch("/", map[], []), 0);
    if time.Some? then SetTime(f, time.value) else f
  }

  /** `unpack(record)`: the root is updated at step `length`, then the
      counter moves on by one. If the update raises, the counter stays and
      the part of the record already stored stays stored. */
  function Unpack(f: Fox, record: Value): (r: Outcome<Fox>)
    ensures r.state.data == Update(f.data, f.length, record).state
    ensures r.state.time == f.time
    ensures r.Completed? <==> Update(f.data, f.length, record).Completed?
    ensures r.Completed? ==> r.state.length == f.length + 1
    ensures r.Raised? ==> r.state.length == f.length
  {
    match Update(f.data, f.length, record)
    case Completed(d) => Completed(f.(data := d, length := f.length + 1))
    case Raised(d) => Raised(f.(data := d))
  }

  /** Reading a stream: `unpack` for each record in turn, stopping at the
      first that raises. */
  function UnpackAll(f: Fox, records: seq<Value>): (r: Outcome<Fox>)
    ensures r.state.time == f.time
    ensures r.Completed? ==> r.state.length == f.length + |records|
    decreases |records|
  {
    if |records| == 0 then Completed(f)
    else
      var u := Unpack(f, records[0]);
      if u.Raised? then u else UnpackAll(u.state, records[1..])
  }

  /** The `k`-th record of a stream is unpacked at step `length + k`. */
  lemma {:induction false} UnpackAllLast(f: Fox, records: seq<Value>, record: Value)
    ensures var r := UnpackAll(f, records);
      UnpackAll(f, records + [record])
        == if r.Raised? then r else Unpack(r.state, record)
    decreases |records|
  {
    if |records| > 0 {
      var u := Unpack(f, records[0]);
      assert UnpackAll(f, records + [record])
          == if u.Raised? then u else UnpackAll(u.state, records[1..] + [record]) by {
        assert (records + [record])[0] == records[0];
        assert (records + [record])[1..] == records[1..] + [record];
      }
      if u.Completed? {
        UnpackAllLast(u.state, records[1..], record);
      }
    }
  }

  // ---------------------------------------------------------------- invariant

  /** What every `Fox` satisfies: the root is a branch labelled `/`, and
      the tree is valid with every stored step at most `length` (a record
      that raised may have left steps at `length` itself). */
  predicate Valid(f: Fox)
  {
    f.data.Branch? && f.data.name == "/" && Nodes.Valid(f.data, f.length + 1)
  }

  lemma NewValid(time: Option<TimeArg>)
    ensures Valid(New(time))
  {
  }

  /** `unpack` keeps the invariant, whether the record completes or
      raises. */
  lemma UnpackValid(f: Fox, record: Value)
    requires Valid(f)
    ensures Valid(Unpack(f, record).state)
  {
    UpdateValid(f.data, f.length, record, f.length + 1);
    ValidGrows(Update(f.data, f.length, record).state, f.length + 1, f.length + 2);
  }

  lemma {:induction false} UnpackAllValid(f: Fox, records: seq<Value>)
    requires Valid(f)
    ensures Valid(UnpackAll(f, records).state)
    decreases |records|
  {
    if |records| > 0 {
      UnpackValid(f, records[0]);
      UnpackAllValid(Unpack(f, records[0]).state, records[1..]);
    }
  }

  // ---------------------------------------------------------------- get_series

  /** The keys of a label: every leading and trailing `/` stripped, then
      split on `/`. */
  function PathOf(l: string): (keys: seq<string>)
    ensures |keys| >= 1 && forall i :: 0 <= i < |keys| ==> '/' !in keys[i]
  {
    Split(Strip(l, '/'), '/')
  }

  /** `get_series(label)`: the indexed series the keys of the label lead
      to, as dictionary keys, and a failure when they lead elsewhere. */
  function GetSeries(f: Fox, l: string): (r: Result<Indexed.IndexedSeries>)
    ensures r.Success? ==> Lookup(f.data, Names(PathOf(l))) == Some(Leaf(r.value))
    ensures var found := Lookup(f.data, Names(PathOf(l)));
      found.Some? && found.value.Leaf? ==> r == Success(found.value.series)
  {
    var keys := PathOf(l);
    var found := Lookup(f.data, Names(keys));
    var r := GetChild(f.data, keys);
    assert r.Success? ==> found == Some(Leaf(r.value)) by {
      if r.Success? { GetChildIsLookup(f.data, keys, r.value); }
    }
    assert found.Some? && found.value.Leaf? ==> r == Success(found.value.series) by {
      if found.Some? && found.value.Leaf? { GetChildIsLookup(f.data, keys, found.value.series); }
    }
    r
  }

  /** `get_series` finds exactly the indexed series the keys of the label
      lead to, as dictionary keys. */
  lemma GetSeriesIsLookup(f: Fox, l: string, s: Indexed.IndexedSeries)
    ensures GetSeries(f, l) == Success(s) <==> Lookup(f.data, Names(PathOf(l))) == Some(Leaf(s))
  {
    GetChildIsLookup(f.data, PathOf(l), s);
  }

  /** Leading and trailing `/` make no difference: `/a/b`, `a/b/` and
      `//a/b` name the same series. */
  lemma GetSeriesSlashes(f: Fox, l: string)
    ensures GetSeries(f, "/" + l) == GetSeries(f, l)
    ensures GetSeries(f, l + "/") == GetSeries(f, l)
  {
    StripLeading(l, '/');
    StripTrailing(l, '/');
  }

  /** A series found by `get_series` in a valid tree carries the label
      `/` followed by the stripped path, when no segment of the path is
      empty. */
  lemma GetSeriesLabel(f: Fox, l: string, s: Indexed.IndexedSeries)
    requires Valid(f) && GetSeries(f, l) == Success(s)
    requires forall i :: 0 <= i < |PathOf(l)| ==> PathOf(l)[i] != ""
    ensures s.name == "/" + Strip(l, '/')
  {
    var keys := PathOf(l);
    var path := Names(keys);
    assert s.name == PathLabel("/", path) by {
      GetSeriesIsLookup(f, l, s);
      LookupLabel(f.data, path, f.length + 1);
    }
    assert PathLabel("/", path) == "/" + Join(keys, "/") by {
      assert Texts(path) == keys;
      PathLabelFromRoot(path);
    }
    assert Join(keys, "/") == Strip(l, '/') by {
      JoinSplit(Strip(l, '/'), '/');
    }
  }


  // ---------------------------------------------------------------- labels

  /** `labels`: the labels the root lists. */
  function Labels(f: Fox): (r: seq<string>)
    ensures r == ListLabels(f.data)
  {
    ListLabels(f.data)
  }

  /** Joining non-empty, `/`-free segments behind a `/` and reading the
      result back as a path gives the segments again. */
  lemma PathOfJoin(texts: seq<string>)
    requires |texts| >= 1
    requires forall i :: 0 <= i < |texts| ==> texts[i] != "" && '/' !in texts[i]
    ensures PathOf("/" + Join(texts, "/")) == texts
  {
    var joined := Join(texts, "/");
    Unframed(texts, joined);
    StripLeading(joined, '/');
    StripNothing(joined, '/');
    assert Strip("/" + joined, '/') == joined;
    SplitJoin(texts, '/');
  }

  /** A join of non-empty, `/`-free segments neither starts nor ends with `/`. */
  lemma Unframed(texts: seq<string>, joined: string)
    requires |texts| >= 1 && joined == Join(texts, "/")
    requires texts[0] != "" && '/' !in texts[0]
    requires texts[|texts| - 1] != "" && '/' !in texts[|texts| - 1]
    ensures !StartsWith(joined, '/') && !EndsWith(joined, '/')
  {
    JoinEnds(texts, "/");
    var first, last := texts[0], texts[|texts| - 1];
    assert first[0] == joined[0];
    assert joined[|joined| - |last|..] == last;
    assert joined[|joined| - 1] == last[|last| - 1];
  }

  /** Every listed label leads back, through `get_series`, to a series with
      that label, when the keys of the tree are non-empty and free of `/`. */
  lemma LabelsRoundTrip(f: Fox, l: string)
    requires Valid(f) && CleanKeys(f.data) && l in Labels(f)
    ensures GetSeries(f, l).Success? && GetSeries(f, l).value.name == l
  {
    ListedIsReachable(f.data, l);
    var path :| VisiblePath(path) && Lookup(f.data, path).Some?
      && IsLeaf(Lookup(f.data, path).value) && Label(Lookup(f.data, path).value) == l;
    var leaf := Lookup(f.data, path).value;
    LookupLabel(f.data, path, f.length + 1);
    assert leaf.Leaf? && |path| > 0;
    LookupClean(f.data, path);
    forall i | 0 <= i < |path| ensures PlainKey(path[i]) {
      assert Visible(path[i]);
    }
    PathLabelFromRoot(path);
    LeafPath(f, path, leaf);
  }

  /** The `get_series` side of the round trip, for one reachable leaf. */
  lemma LeafPath(f: Fox, path: seq<Key>, leaf: Node)
    requires Lookup(f.data, path) == Some(leaf) && leaf.Leaf? && |path| > 0
    requires forall i :: 0 <= i < |path| ==> path[i].Name? && path[i].name != "" && '/' !in path[i].name
    ensures GetSeries(f, "/" + Join(Texts(path), "/")) == Success(leaf.series)
  {
    var texts := Texts(path);
    PathOfJoin(texts);
    NamesOfTexts(path);
    GetSeriesIsLookup(f, "/" + Join(texts, "/"), leaf.series);
  }

  /** Path segments are strings and never match list positions: after a
      record that is a one-element list, the root has a child under the
      position `0`, and `get_series("/0")` does not find it. */
  lemma SegmentIsNotPosition()
    ensures var r := Unpack(New(None), List([Int(7)]));
      && r.Completed?
      && Index(0) in r.state.data.children
      && GetSeries(r.state, "/0") == Failure(MissingKey)
  {
    var v := List([Int(7)]);
    var d := Update(New(None).data, 0, v);
    OnlyPosition(v, d);
    ZeroPath();
  }

  lemma ZeroPath()
    ensures PathOf("/0") == ["0"]
  {
    var z := "0";
    assert "/0" == ['/'] + z;
    assert !StartsWith(z, '/') && !EndsWith(z, '/') && '/' !in z;
    StripLeading(z, '/');
    StripNothing(z, '/');
    SplitFree(z, '/');
  }

  lemma OnlyPosition(v: Value, d: Outcome<Node>)
    requires v == List([Int(7)]) && d == Update(Branch("/", map[], []), 0, v)
    ensures d.Completed? && d.state.children.Keys == {Index(0)}
  {
    var n := Branch("/", map[], []);
    assert Items(v) == [(Index(0), Int(7))];
    ChildApplies(0, v);
    ItemsUntouched(n, Items(v), Child(0, v));
    ItemsCover(n, Items(v), Child(0, v));
    HasKeyAt(Items(v), Name("0"));
  }

  // ---------------------------------------------------------------- plot

  /** What the start of `plot` leaves behind: the `Fox` after `set_time`,
      whose time label later calls keep, and the time axis or the error
      reading it raised. */
  datatype Axis = Axis(fox: Fox, times: Result<seq<Value>>)

  /** The time axis of `plot`: a given time first goes through `set_time`
      and stays set; the axis is then the time series read out over
      `length` steps when a time label is set, `0.0, 1.0, ..` otherwise. */
  function PlotTimes(f: Fox, time: Option<TimeArg>): (r: Axis)
    ensures time.None? ==> r.fox == f
    ensures time.Some? ==> r.fox.time == Some(TimeName(time.value))
    ensures r.fox.data == f.data && r.fox.length == f.length
    ensures r.fox.time.Some? ==> r.times == (match GetSeries(r.fox, r.fox.time.value)
                                             case Success(s) => Success(Indexed.Get(s, f.length))
                                             case Failure(e) => Failure(e))
    ensures r.fox.time.None? ==>
      r.times.Success? && |r.times.value| == f.length
      && forall i :: 0 <= i < f.length ==> r.times.value[i] == Float(Fin(i as real))
  {
    var g := if time.Some? then SetTime(f, time.value) else f;
    if g.time.Some? then
      Axis(g, match GetSeries(g, g.time.value)
              case Success(s) => Success(Indexed.Get(s, g.length))
              case Failure(e) => Failure(e))
    else
      Axis(g, Success(seq(g.length, i requires 0 <= i < g.length => Float(Fin(i as real)))))
  }

  /** The time given to one `plot` stays: a later `plot()` without a time
      draws the same axis, and raises the same error if reading it
      raised. */
  lemma PlotKeepsTime(f: Fox, t: TimeArg)
    ensures var first := PlotTimes(f, Some(t));
      PlotTimes(first.fox, None) == first
  {
  }
}

=== FILE: frozen_series.dfy ===
/** Materialised series: a label and a dense float64 array, with the
    element-wise `+` and `*` of NumPy and the labels they produce. */
module Frozen {
  import opened Common
  import opened Floats

  datatype FrozenSeries = FrozenSeries(name: string, values: seq<Float>)

  /** `__len__`: the number of stored values. */
  function Len(s: FrozenSeries): (r: nat)
    ensures r == |s.values|
  {
    |s.values|
  }

  // ---------------------------------------------------------------- labels

  /** `os.path.commonprefix` of two strings: character-wise, not aware of
      `/`-separated path components. */
  function CommonPrefix(a: string, b: string): (p: string)
    ensures p <= a && p <= b
    ensures |p| == |a| || |p| == |b| || a[|p|] != b[|p|]
  {
    if |a| > 0 && |b| > 0 && a[0] == b[0] then
      var p := CommonPrefix(a[1..], b[1..]);
      assert [a[0]] + p <= a by { assert a == [a[0]] + a[1..]; }
      assert [a[0]] + p <= b by { assert b == [b[0]] + b[1..]; }
      [a[0]] + p
    else
      []
  }

  /** Every common prefix is a prefix of `CommonPrefix`: it is the longest. */
  lemma {:induction false} CommonPrefixLongest(a: string, b: string, q: string)
    requires q <= a && q <= b
    ensures q <= CommonPrefix(a, b)
  {
    if |q| > 0 {
      assert a[0] == q[0] == b[0];
      CommonPrefixLongest(a[1..], b[1..], q[1..]);
    }
  }

  /** `_operator_label`: the longest common prefix `p` of both labels, then
      both remainders around the operator, in parentheses. */
  function OperatorLabel(op: string, a: string, b: string): (r: string)
    ensures exists p :: (p <= a && p <= b
      && (|p| == |a| || |p| == |b| || a[|p|] != b[|p|])
      && r == p + "(" + a[|p|..] + " " + op + " " + b[|p|..] + ")")
  {
    var p := CommonPrefix(a, b);
    p + "(" + a[|p|..] + " " + op + " " + b[|p|..] + ")"
  }

  /** The longest common prefix is unique, so `OperatorLabel` is the only
      label of the promised shape. */
  lemma {:induction false} OperatorLabelUnique(op: string, a: string, b: string, p: string)
    requires p <= a && p <= b
    requires |p| == |a| || |p| == |b| || a[|p|] != b[|p|]
    ensures p == CommonPrefix(a, b)
    ensures OperatorLabel(op, a, b) == p + "(" + a[|p|..] + " " + op + " " + b[|p|..] + ")"
  {
    var q := CommonPrefix(a, b);
    CommonPrefixLongest(a, b, p);
  }

  /** With no common first character, the label is `(a op b)`. */
  lemma {:induction false} OperatorLabelNoPrefix(op: string, a: string, b: string)
    requires |a| == 0 || |b| == 0 || a[0] != b[0]
    ensures OperatorLabel(op, a, b) == "(" + a + " " + op + " " + b + ")"
  {
    assert CommonPrefix(a, b) == [];
    assert a[0..] == a && b[0..] == b;
  }

  /** The prefix is character-wise: `/x/ab` and `/x/ac` give `/x/a(b + c)`. */
  lemma OperatorLabelNotPathAware()
    ensures OperatorLabel("+", "/x/ab", "/x/ac") == "/x/a(b + c)"
  {
    var a, b := "/x/ab", "/x/ac";
    assert "/x/a" <= a && "/x/a" <= b && a[4] != b[4];
    OperatorLabelUnique("+", a, b, "/x/a");
    assert a[4..] == "b" && b[4..] == "c";
  }

  // ---------------------------------------------------------------- arithmetic

  /** NumPy broadcasting of two one-dimensional arrays. */
  predicate Broadcastable(a: seq<Float>, b: seq<Float>)
  {
    |a| == |b| || |a| == 1 || |b| == 1
  }

  function BroadcastLen(a: seq<Float>, b: seq<Float>): nat
  {
    if |a| == |b| then |a| else if |a| == 1 then |b| else |a|
  }

  /** The element a broadcast array contributes at position `i`. */
  function Elem(a: seq<Float>, i: nat): Float
    requires |a| > 0
  {
    if |a| == 1 then a[0] else if i < |a| then a[i] else NaN
  }

  /** An element-wise NumPy operation: defined when the shapes broadcast,
      a `ValueError` otherwise. */
  function Zip(a: seq<Float>, b: seq<Float>, f: (Float, Float) -> Float): (r: Result<seq<Float>>)
    ensures r.Success? <==> Broadcastable(a, b)
    ensures r.Success? ==> |r.value| == BroadcastLen(a, b)
    ensures r.Success? && |a| == |b| ==> forall i :: 0 <= i < |a| ==> r.value[i] == f(a[i], b[i])
    ensures r.Success? && |a| != |b| && |a| == 1 ==> forall i :: 0 <= i < |b| ==> r.value[i] == f(a[0], b[i])
    ensures r.Success? && |a| != |b| && |a| != 1 ==> forall i :: 0 <= i < |a| ==> r.value[i] == f(a[i], b[0])
  {
    if !Broadcastable(a, b) then Failure(ShapeMismatch)
    else
      var n := BroadcastLen(a, b);
      if n == 0 then Success([])
      else
        var r := seq(n, i requires 0 <= i < n => f(Elem(a, i), Elem(b, i)));
        assert forall i :: 0 <= i < n ==> r[i] == f(Elem(a, i), Elem(b, i));
        Success(r)
  }

  /** `__add__`: a new series labelled by `OperatorLabel("+", ..)` holding
      the element-wise sums. */
  function Plus(s: FrozenSeries, o: FrozenSeries): (r: Result<FrozenSeries>)
    ensures r.Success? <==> Broadcastable(s.values, o.values)
    ensures r.Success? ==> r.value.name == OperatorLabel("+", s.name, o.name)
    ensures r.Success? && |s.values| == |o.values| ==>
      |r.value.values| == |s.values|
      && forall i :: 0 <= i < |s.values| ==> r.value.values[i] == Add(s.values[i], o.values[i])
  {
    var name := OperatorLabel("+", s.name, o.name);
    var values :- Zip(s.values, o.values, Add);
    Success(FrozenSeries(name, values))
  }

  /** `__mul__`: a new series labelled by `OperatorLabel("*", ..)` holding
      the element-wise products. */
  function Times(s: FrozenSeries, o: FrozenSeries): (r: Result<FrozenSeries>)
    ensures r.Success? <==> Broadcastable(s.values, o.values)
    ensures r.Success? ==> r.value.name == OperatorLabel("*", s.name, o.name)
    ensures r.Success? && |s.values| == |o.values| ==>
      |r.value.values| == |s.values|
      && forall i :: 0 <= i < |s.values| ==> r.value.values[i] == Mul(s.values[i], o.values[i])
  {
    var name := OperatorLabel("*", s.name, o.name);
    var values :- Zip(s.values, o.values, Mul);
    Success(FrozenSeries(name, values))
  }

  /** Swapping the operands of `+` or `*` changes the label but not the
      values. */
  lemma OperandsCommute(s: FrozenSeries, o: FrozenSeries)
    requires |s.values| == |o.values|
    ensures Plus(s, o).value.values == Plus(o, s).value.values
    ensures Times(s, o).value.values == Times(o, s).value.values
  {
    var a := Plus(s, o).value.values;
    var b := Plus(o, s).value.values;
    assert forall i :: 0 <= i < |a| ==> a[i] == b[i];
    var c := Times(s, o).value.values;
    var d := Times(o, s).value.values;
    assert forall i :: 0 <= i < |c| ==> c[i] == d[i] by {
      forall i | 0 <= i < |c| ensures c[i] == d[i] {
        var x := s.values[i];
        var y := o.values[i];
        if x.Fin? && y.Fin? {
          assert x.r * y.r == y.r * x.r;
        }
      }
    }
  }
}

=== FILE: functions.dfy ===
/** The functions applied to frozen series: absolute value, rolling
    standard deviation, a first-order low-pass filter and the online
    estimator of the lag of a first-order response. The numerical routines
    they call come in through a `Numerics` record. */
module Functions {
  import opened Common
  import opened Floats
  import opened Strings
  import opened Values
  import opened Frozen
  import Nodes

  // ---------------------------------------------------------------- abs

  /** `abs(series)`: the magnitude of every value, NaN kept, under the label
      `abs(..)`. */
  function Absolute(s: FrozenSeries): (r: FrozenSeries)
    ensures r.name == "abs(" + s.name + ")"
    ensures |r.values| == |s.values|
    ensures forall i :: 0 <= i < |s.values| ==> (r.values[i].NaN? <==> s.values[i].NaN?)
    ensures forall i :: 0 <= i < |s.values| && s.values[i].Fin? ==>
      r.values[i].r >= 0.0 && (r.values[i].r == s.values[i].r || r.values[i].r == -s.values[i].r)
  {
    FrozenSeries("abs(" + s.name + ")", seq(|s.values|, i requires 0 <= i < |s.values| => Abs(s.values[i])))
  }

  /** Taking the absolute value twice changes the label only. */
  lemma AbsoluteTwice(s: FrozenSeries)
    ensures Absolute(Absolute(s)).values == Absolute(s).values
    ensures Absolute(Absolute(s)).name == "abs(abs(" + s.name + "))"
  {
    var a := Absolute(s).values;
    var b := Absolute(Absolute(s)).values;
    assert forall i :: 0 <= i < |a| ==> b[i] == a[i];
  }

  // ---------------------------------------------------------------- std

  /** NumPy's `sliding_window_view` of width `w`: every run of `w`
      consecutive values, from left to right. */
  function Windows(values: seq<Float>, w: nat): (r: seq<seq<Float>>)
    requires w <= |values|
    ensures |r| == |values| - w + 1
    ensures forall i :: 0 <= i < |r| ==> |r[i]| == w && r[i] <= values[i..]
  {
    seq(|values| - w + 1, i requires 0 <= i <= |values| - w => values[i..i + w])
  }

  function StdLabel(name: string, w: int): string
  {
    "std(" + name + ", " + IntToString(w) + ")"
  }

  /** `std(series, window_size)`: the standard deviation of each window; a
      negative width or one wider than the series is a `ValueError`. */
  function Std(s: FrozenSeries, w: int, nm: Numerics): (r: Result<FrozenSeries>)
    ensures r.Success? <==> 0 <= w <= |s.values|
    ensures r.Failure? ==> r.error == InvalidWindow
    ensures r.Success? ==> r.value.name == StdLabel(s.name, w)
    ensures r.Success? ==> |r.value.values| == |s.values| - w + 1
    ensures r.Success? ==> forall i :: 0 <= i < |r.value.values| ==>
      r.value.values[i] == nm.std(s.values[i..i + w])
  {
    if w < 0 || w > |s.values| then Failure(InvalidWindow)
    else
      var windows := Windows(s.values, w);
      assert forall i :: 0 <= i < |windows| ==> windows[i] == s.values[i..i + w] by {
        forall i | 0 <= i < |windows| ensures windows[i] == s.values[i..i + w] {
          assert windows[i] <= s.values[i..];
        }
      }
      Success(FrozenSeries(StdLabel(s.name, w), seq(|windows|, i requires 0 <= i < |windows| => nm.std(windows[i]))))
  }

  /** The label records the window: two results of `std` on the same series
      with equal labels used the same width. */
  lemma StdLabelInjective(name: string, w1: int, w2: int)
    requires StdLabel(name, w1) == StdLabel(name, w2)
    ensures w1 == w2
  {
    var p := "std(" + name + ", ";
    var a, b := IntToString(w1), IntToString(w2);
    var x, y := a + ")", b + ")";
    assert StdLabel(name, w1) == p + x;
    assert StdLabel(name, w2) == p + y;
    assert x == (p + x)[|p|..] == (p + y)[|p|..] == y;
    assert a == x[..|a|] && b == y[..|b|];
    IntToStringInjective(w1, w2);
  }

  /** A window as wide as the series gives a single value: the standard
      deviation of the whole series. */
  lemma StdWholeSeries(s: FrozenSeries, nm: Numerics)
    ensures Std(s, |s.values|, nm).Success?
    ensures Std(s, |s.values|, nm).value.values == [nm.std(s.values)]
  {
    var r := Std(s, |s.values|, nm).value.values;
    assert r[0] == nm.std(s.values[0..|s.values|]);
    assert s.values[0..|s.values|] == s.values;
  }

  // ---------------------------------------------------------------- shared loop

  /** The sampling-theorem check of both filters at loop index `i`: the time
      constant is below twice the step `time[i+1] - time[i]`. False when any
      of them is NaN. */
  predicate Nyquist(time: seq<Float>, T: Float, i: nat)
    requires i + 1 < |time|
  {
    Lt(T, Mul(Fin(2.0), Sub(time[i + 1], time[i])))
  }

  /** Every loop index from `from` on that passes the sampling check reads
      positions below `n` only. */
  predicate ReadsWithin(time: seq<Float>, T: Float, from: nat, n: int)
  {
    forall j :: from <= j && j + 1 < |time| && !Nyquist(time, T, j) ==> j < n
  }

  /** The forgetting factor `exp(-dt / T)`. */
  function Decay(dt: Float, T: Float, nm: Numerics): Float
  {
    nm.exp(Div(Neg(dt), T))
  }

  // ---------------------------------------------------------------- low_pass_filter

  /** One update of the filter output towards input value `x`. */
  function Blend(out: Float, x: Float, dt: Float, T: Float, nm: Numerics): Float
  {
    Add(out, Mul(Sub(Fin(1.0), Decay(dt, T, nm)), Sub(x, out)))
  }

  /** The loop of `low_pass_filter` from index `i`, with the running output
      `out`: NaN for a step that fails the sampling check (the running
      output then stays), the blended output otherwise, and an `IndexError`
      when a checked step reads past the input. */
  function FilterFrom(time: seq<Float>, input: seq<Float>, T: Float, nm: Numerics, i: nat, out: Float): (r: Result<seq<Float>>)
    ensures r.Success? <==> ReadsWithin(time, T, i, |input|)
    ensures r.Failure? ==> r.error == IndexOutOfRange
    ensures r.Success? ==> |r.value| == if i + 1 < |time| then |time| - 1 - i else 0
    ensures r.Success? ==> forall p :: 0 <= p < |r.value| && Nyquist(time, T, i + p) ==> r.value[p] == NaN
    decreases |time| - i
  {
    if i + 1 >= |time| then Success([])
    else if Nyquist(time, T, i) then
      var rest :- FilterFrom(time, input, T, nm, i + 1, out);
      Success([NaN] + rest)
    else if i >= |input| then Failure(IndexOutOfRange)
    else
      var next := Blend(out, input[i], Sub(time[i + 1], time[i]), T, nm);
      var rest :- FilterFrom(time, input, T, nm, i + 1, next);
      Success([next] + rest)
  }

  function LowPassLabel(input: FrozenSeries, T: Float, nm: Numerics): string
  {
    "low_pass_filter(input=" + input.name + ", T=" + nm.show(T) + ")"
  }

  /** `low_pass_filter(time, input, T)`: an `IndexError` for an empty input
      or a checked step past its end, and an `AssertionError` unless the
      input and the times have the same length. */
  function LowPassFilter(time: FrozenSeries, input: FrozenSeries, T: Float, nm: Numerics): (r: Result<FrozenSeries>)
    ensures r.Success? <==> 1 <= |input.values| == |time.values|
    ensures |input.values| == 0 ==> r == Failure(IndexOutOfRange)
    ensures 1 <= |input.values| && |time.values| <= |input.values| + 1 && |input.values| != |time.values| ==>
      r == Failure(AssertionFailed)
    ensures r.Success? ==> r.value.name == LowPassLabel(input, T, nm)
    ensures r.Success? ==> |r.value.values| == |time.values| && r.value.values[0] == input.values[0]
    ensures r.Success? ==> forall k :: 1 <= k < |time.values| && Nyquist(time.values, T, k - 1) ==> r.value.values[k] == NaN
  {
    if |input.values| == 0 then Failure(IndexOutOfRange)
    else
      var rest :- FilterFrom(time.values, input.values, T, nm, 0, input.values[0]);
      var outputs := [input.values[0]] + rest;
      if |outputs| != |input.values| || |input.values| != |time.values| then Failure(AssertionFailed)
      else
        assert forall k :: 1 <= k < |time.values| ==> outputs[k] == rest[k - 1];
        Success(FrozenSeries(LowPassLabel(input, T, nm), outputs))
  }

  /** Reference definition of the filter's running output after `k` steps:
      it starts at the first input and blends in `input[j]` at each step `j`
      that passes the sampling check. */
  function State(time: seq<Float>, input: seq<Float>, T: Float, nm: Numerics, k: nat): Float
    requires 1 <= |input| == |time| && k < |time|
  {
    if k == 0 then input[0]
    else if Nyquist(time, T, k - 1) then State(time, input, T, nm, k - 1)
    else Blend(State(time, input, T, nm, k - 1), input[k - 1], Sub(time[k], time[k - 1]), T, nm)
  }

  /** Position `p` of the loop started at index `i` from the reference
      state is the reference state `p + 1` steps later, or NaN. */
  lemma {:induction false} FilterFromState(time: seq<Float>, input: seq<Float>, T: Float, nm: Numerics, i: nat, p: nat)
    requires 1 <= |input| == |time| && i + 1 + p < |time|
    ensures var r := FilterFrom(time, input, T, nm, i, State(time, input, T, nm, i));
      && r.Success? && |r.value| == |time| - 1 - i
      && r.value[p] == if Nyquist(time, T, i + p) then NaN else State(time, input, T, nm, i + p + 1)
    decreases p
  {
    var r := FilterFrom(time, input, T, nm, i, State(time, input, T, nm, i));
    var rest := FilterFrom(time, input, T, nm, i + 1, State(time, input, T, nm, i + 1));
    FilterStepState(time, input, T, nm, i);
    if p > 0 {
      FilterFromState(time, input, T, nm, i + 1, p - 1);
      assert r.value[p] == rest.value[p - 1];
      assert (i + 1) + (p - 1) == i + p;
    }
  }

  /** One step of the loop moves the reference state on by one. */
  lemma FilterStepState(time: seq<Float>, input: seq<Float>, T: Float, nm: Numerics, i: nat)
    requires 1 <= |input| == |time| && i + 1 < |time|
    ensures var next := State(time, input, T, nm, i + 1);
      FilterFrom(time, input, T, nm, i, State(time, input, T, nm, i)).value
        == [if Nyquist(time, T, i) then NaN else next] + FilterFrom(time, input, T, nm, i + 1, next).value
  {
  }

  /** Every output of the filter is the running output of the reference
      definition, or NaN at a step that fails the sampling check. */
  lemma LowPassIsState(time: FrozenSeries, input: FrozenSeries, T: Float, nm: Numerics, k: nat)
    requires 1 <= |input.values| == |time.values| && k < |time.values|
    ensures LowPassFilter(time, input, T, nm).Success?
    ensures LowPassFilter(time, input, T, nm).value.values[k] ==
      if k > 0 && Nyquist(time.values, T, k - 1) then NaN else State(time.values, input.values, T, nm, k)
  {
    if k > 0 {
      FilterFromState(time.values, input.values, T, nm, 0, k - 1);
    }
  }

  /** `exp` is finite on finite arguments. */
  ghost predicate ExpFinite(nm: Numerics)
  {
    forall x: Float :: x.Fin? ==> nm.exp(x).Fin?
  }

  /** A constant input is a fixed point of the filter: with finite times, a
      non-zero time constant and a finite `exp`, the running output never
      leaves the constant. */
  lemma {:induction false} ConstantInputIsFixed(time: seq<Float>, input: seq<Float>, T: Float, nm: Numerics, c: real, k: nat)
    requires 1 <= |input| == |time| && k < |time|
    requires forall j :: 0 <= j < |input| ==> input[j] == Fin(c)
    requires forall j :: 0 <= j < |time| ==> time[j].Fin?
    requires T.Fin? && T.r != 0.0 && ExpFinite(nm)
    ensures State(time, input, T, nm, k) == Fin(c)
  {
    if k > 0 {
      ConstantInputIsFixed(time, input, T, nm, c, k - 1);
      if !Nyquist(time, T, k - 1) {
        var dt := Sub(time[k], time[k - 1]);
        assert Div(Neg(dt), T).Fin?;
        assert Decay(dt, T, nm).Fin?;
      }
    }
  }

  /** Once the running output is NaN it stays NaN. */
  lemma {:induction false} StateStaysNaN(time: seq<Float>, input: seq<Float>, T: Float, nm: Numerics, j: nat, k: nat)
    requires 1 <= |input| == |time| && j <= k < |time|
    requires State(time, input, T, nm, j).NaN?
    ensures State(time, input, T, nm, k).NaN?
  {
    if k > j {
      StateStaysNaN(time, input, T, nm, j, k - 1);
    }
  }

  /** A NaN time constant passes every sampling check and turns every
      output after the first into NaN. */
  lemma {:induction false} LowPassNaNTimeConstant(time: seq<Float>, input: seq<Float>, nm: Numerics, k: nat)
    requires 1 <= |input| == |time| && 1 <= k < |time| && NaNStrict(nm)
    ensures State(time, input, NaN, nm, k).NaN?
  {
    assert !Nyquist(time, NaN, k - 1);
    if k > 1 {
      LowPassNaNTimeConstant(time, input, nm, k - 1);
    }
  }

  // ---------------------------------------------------------------- estimate_lag

  /** The decayed dot products `x·x`, `x·y` and `y·y` of the online
      regression of `y` on `x`. */
  datatype Acc = Acc(xx: Float, xy: Float, yy: Float)

  /** What one step of the estimator records. */
  datatype Estimate = Estimate(slope: Float, lag: Float, error: Float)

  const Zero := Acc(Fin(0.0), Fin(0.0), Fin(0.0))
  const Missing := Estimate(NaN, NaN, NaN)

  /** The accumulator update: decay, then add the new products. */
  function Accumulate(acc: Acc, ff: Float, x: Float, y: Float): Acc
  {
    Acc(Add(Mul(ff, acc.xx), Mul(x, x)), Add(Mul(ff, acc.xy), Mul(x, y)), Add(Mul(ff, acc.yy), Mul(y, y)))
  }

  /** The estimate read from an accumulator: none while `x·x` is below
      `1e-10` or the slope is, otherwise the slope `x·y / x·x`, the lag
      `-dt / log(1 - slope)` and the fitting error, which is the residual
      `y·y - slope·x·y` of the regression scaled by `1 - ff`. */
  function Read(acc: Acc, ff: Float, dt: Float, nm: Numerics): (e: Estimate)
    ensures Lt(acc.xx, Eps) || Lt(Div(acc.xy, acc.xx), Eps) ==> e == Missing
    ensures !Lt(acc.xx, Eps) && !Lt(Div(acc.xy, acc.xx), Eps) ==>
      e.slope == Div(acc.xy, acc.xx) && e.lag == Div(Neg(dt), nm.log(Sub(Fin(1.0), e.slope)))
    ensures e.slope.Fin? ==> acc.xx.Fin? && !Lt(acc.xx, Eps) && !Lt(e.slope, Eps)
    ensures e.slope.Fin? ==> acc.xy.Fin? && e.slope.r * acc.xx.r == acc.xy.r
    ensures e.slope.Fin? && acc.yy.Fin? && ff.Fin? ==>
      e.error == Fin((1.0 - ff.r) * (acc.yy.r - e.slope.r * acc.xy.r))
    ensures acc.xx.NaN? ==> e.slope.NaN?
  {
    if Lt(acc.xx, Eps) then Missing
    else
      var slope := Div(acc.xy, acc.xx);
      if Lt(slope, Eps) then Missing
      else
        var lag := Div(Neg(dt), nm.log(Sub(Fin(1.0), slope)));
        var total := Add(Sub(Mul(Mul(slope, slope), acc.xx), Mul(Mul(Fin(2.0), acc.xy), slope)), acc.yy);
        assert slope.Fin? && acc.yy.Fin? ==> total == Fin(acc.yy.r - slope.r * acc.xy.r) by {
          if slope.Fin? && acc.yy.Fin? {
            ResidualForm(slope, acc);
          }
        }
        Estimate(slope, lag, Mul(Sub(Fin(1.0), ff), total))
  }

  /** With `slope·x·x == x·y`, the expanded squared error
      `slope²·x·x - 2·x·y·slope + y·y` is the residual `y·y - slope·x·y`. */
  lemma ResidualForm(slope: Float, acc: Acc)
    requires slope.Fin? && acc.xx.Fin? && acc.xy.Fin? && acc.yy.Fin?
    requires slope.r * acc.xx.r == acc.xy.r
    ensures Add(Sub(Mul(Mul(slope, slope), acc.xx), Mul(Mul(Fin(2.0), acc.xy), slope)), acc.yy)
      == Fin(acc.yy.r - slope.r * acc.xy.r)
  {
    var s, xx, xy := slope.r, acc.xx.r, acc.xy.r;
    calc {
      s * s * xx;
      s * (s * xx);
      s * xy;
    }
    assert 2.0 * xy * s == 2.0 * (s * xy);
  }

  /** The step `dt`, the input-output gap `x` and the output increment `y`
      that loop index `i` regresses. */
  function Sample(time: seq<Float>, input: seq<Float>, output: seq<Float>, i: nat): (Float, Float, Float)
    requires i + 1 < |time| && i < |input| && i + 1 < |output|
  {
    (Sub(time[i + 1], time[i]), Sub(input[i], output[i]), Sub(output[i + 1], output[i]))
  }

  predicate HasNaN(s: (Float, Float, Float))
  {
    s.0.NaN? || s.1.NaN? || s.2.NaN?
  }

  /** One checked step of `estimate_lag` at index `i`: an `IndexError` when
      it reads past `input` or `output`; no estimate and an untouched
      accumulator when `dt`, `x` or `y` is NaN; otherwise the accumulator
      is decayed by `exp(-dt / T)`, the new products are added, and the
      result is read. */
  function LagStep(time: seq<Float>, input: seq<Float>, output: seq<Float>, T: Float, nm: Numerics, i: nat, acc: Acc): (r: Result<(Acc, Estimate)>)
    requires i + 1 < |time|
    ensures r.Failure? <==> i >= |input| || i + 1 >= |output|
    ensures r.Failure? ==> r.error == IndexOutOfRange
    ensures r.Success? ==> i < |input| && i + 1 < |output| && HasNaN(Sample(time, input, output, i)) ==>
      r.value == (acc, Missing)
    ensures r.Success? ==> i < |input| && i + 1 < |output| && !HasNaN(Sample(time, input, output, i)) ==>
      var (dt, x, y) := Sample(time, input, output, i);
      r.value.0 == Accumulate(acc, Decay(dt, T, nm), x, y) && r.value.1 == Read(r.value.0, Decay(dt, T, nm), dt, nm)
    ensures r.Success? && r.value.1.slope.Fin? ==> !Lt(r.value.1.slope, Eps)
    ensures r.Success? && acc.xx.NaN? ==> r.value.0.xx.NaN? && r.value.1.slope.NaN?
  {
    if i >= |input| || i + 1 >= |output| then Failure(IndexOutOfRange)
    else
      var s := Sample(time, input, output, i);
      if HasNaN(s) then Success((acc, Missing))
      else
        var ff := Decay(s.0, T, nm);
        var acc' := Accumulate(acc, ff, s.1, s.2);
        Success((acc', Read(acc', ff, s.0, nm)))
  }

  /** The loop of `estimate_lag` from index `i` with accumulator `acc`. */
  function LagFrom(time: seq<Float>, input: seq<Float>, output: seq<Float>, T: Float, nm: Numerics, i: nat, acc: Acc): (r: Result<seq<Estimate>>)
    ensures r.Success? <==> ReadsWithin(time, T, i, |input|) && ReadsWithin(time, T, i, |output| - 1)
    ensures r.Failure? ==> r.error == IndexOutOfRange
    ensures r.Success? ==> |r.value| == if i + 1 < |time| then |time| - 1 - i else 0
    ensures r.Success? ==> forall p :: 0 <= p < |r.value| && Nyquist(time, T, i + p) ==> r.value[p] == Missing
    ensures r.Success? ==> forall p :: 0 <= p < |r.value| && r.value[p].slope.Fin? ==> !Lt(r.value[p].slope, Eps)
    decreases |time| - i
  {
    if i + 1 >= |time| then Success([])
    else if Nyquist(time, T, i) then
      var rest :- LagFrom(time, input, output, T, nm, i + 1, acc);
      Success([Missing] + rest)
    else
      var step :- LagStep(time, input, output, T, nm, i, acc);
      var rest :- LagFrom(time, input, output, T, nm, i + 1, step.0);
      Success([step.1] + rest)
  }

  /** Every checked step reads inside `input` and `output`: the condition
      under which the loop of `estimate_lag` raises no `IndexError`. */
  predicate Regressable(time: seq<Float>, input: seq<Float>, output: seq<Float>, T: Float)
  {
    ReadsWithin(time, T, 0, |input|) && ReadsWithin(time, T, 0, |output| - 1)
  }

  /** Reference definition of the accumulator after the first `k` loop
      steps: it starts at zero and is never reset; a step that fails the
      sampling check or reads a NaN leaves it as it is, and every other
      step decays it by `exp(-dt / T)` and adds the new products. */
  function AccAt(time: seq<Float>, input: seq<Float>, output: seq<Float>, T: Float, nm: Numerics, k: nat): Acc
    requires k < |time| && Regressable(time, input, output, T)
    decreases k
  {
    if k == 0 then Zero
    else if Nyquist(time, T, k - 1) then AccAt(time, input, output, T, nm, k - 1)
    else
      var s := Sample(time, input, output, k - 1);
      if HasNaN(s) then AccAt(time, input, output, T, nm, k - 1)
      else Accumulate(AccAt(time, input, output, T, nm, k - 1), Decay(s.0, T, nm), s.1, s.2)
  }

  /** Reference definition of the estimate of loop step `j`: missing on a
      step that fails the sampling check or reads a NaN, otherwise what
      the accumulator after the step reads. */
  function EstimateAt(time: seq<Float>, input: seq<Float>, output: seq<Float>, T: Float, nm: Numerics, j: nat): Estimate
    requires j + 1 < |time| && Regressable(time, input, output, T)
  {
    if Nyquist(time, T, j) then Missing
    else
      var s := Sample(time, input, output, j);
      if HasNaN(s) then Missing
      else Read(AccAt(time, input, output, T, nm, j + 1), Decay(s.0, T, nm), s.0, nm)
  }

  /** One step of the loop, started from the reference accumulator, moves
      it on by one and records the reference estimate. */
  lemma LagFromStep(time: seq<Float>, input: seq<Float>, output: seq<Float>, T: Float, nm: Numerics, i: nat)
    requires i + 1 < |time| && Regressable(time, input, output, T)
    ensures LagFrom(time, input, output, T, nm, i, AccAt(time, input, output, T, nm, i)).Success?
    ensures LagFrom(time, input, output, T, nm, i, AccAt(time, input, output, T, nm, i)).value
      == [EstimateAt(time, input, output, T, nm, i)] + LagFrom(time, input, output, T, nm, i + 1, AccAt(time, input, output, T, nm, i + 1)).value
  {
    assert ReadsWithin(time, T, i, |input|) && ReadsWithin(time, T, i, |output| - 1);
    assert ReadsWithin(time, T, i + 1, |input|) && ReadsWithin(time, T, i + 1, |output| - 1);
  }

  /** The reference estimates of loop steps `i`, `i + 1`, .. */
  function EstimatesFrom(time: seq<Float>, input: seq<Float>, output: seq<Float>, T: Float, nm: Numerics, i: nat): (r: seq<Estimate>)
    requires i < |time| && Regressable(time, input, output, T)
    ensures |r| == |time| - 1 - i
    ensures forall p :: 0 <= p < |r| ==> r[p] == EstimateAt(time, input, output, T, nm, i + p)
    decreases |time| - i
  {
    if i + 1 >= |time| then []
    else [EstimateAt(time, input, output, T, nm, i)] + EstimatesFrom(time, input, output, T, nm, i + 1)
  }

  /** The loop started at index `i` from the reference accumulator records
      exactly the reference estimates. */
  lemma {:induction false} LagFromAcc(time: seq<Float>, input: seq<Float>, output: seq<Float>, T: Float, nm: Numerics, i: nat)
    requires Regressable(time, input, output, T) && i < |time|
    ensures LagFrom(time, input, output, T, nm, i, AccAt(time, input, output, T, nm, i))
      == Success(EstimatesFrom(time, input, output, T, nm, i))
    decreases |time| - i
  {
    if i + 1 < |time| {
      LagFromStep(time, input, output, T, nm, i);
      LagFromAcc(time, input, output, T, nm, i + 1);
    }
  }

  /** Every estimate after the first is the reference estimate: the loop
      threads one accumulator through all steps and never resets it. */
  lemma EstimateLagIsAcc(time: FrozenSeries, input: FrozenSeries, output: FrozenSeries, T: Float, nm: Numerics, k: nat)
    requires Regressable(time.values, input.values, output.values, T) && 1 <= k < |time.values|
    ensures EstimateLagAll(time, input, output, T, nm).Success?
    ensures EstimateLagAll(time, input, output, T, nm).value[k] == EstimateAt(time.values, input.values, output.values, T, nm, k - 1)
  {
    LagFromAcc(time.values, input.values, output.values, T, nm, 0);
  }

  /** `exp` never returns a negative number. */
  ghost predicate ExpNonNegative(nm: Numerics)
  {
    forall x: Float :: nm.exp(x).Fin? ==> nm.exp(x).r >= 0.0
  }

  /** With a non-negative `exp`, the decayed squares `x·x` and `y·y` never
      go negative, so `x·x` below `1e-10` means the recent gaps between
      input and output were all close to zero. */
  lemma {:induction false} DotsNonNegative(time: seq<Float>, input: seq<Float>, output: seq<Float>, T: Float, nm: Numerics, k: nat)
    requires k < |time| && Regressable(time, input, output, T) && ExpNonNegative(nm)
    ensures var acc := AccAt(time, input, output, T, nm, k);
      (acc.xx.Fin? ==> acc.xx.r >= 0.0) && (acc.yy.Fin? ==> acc.yy.r >= 0.0)
    decreases k
  {
    if k > 0 {
      DotsNonNegative(time, input, output, T, nm, k - 1);
      var prev := AccAt(time, input, output, T, nm, k - 1);
      if !Nyquist(time, T, k - 1) {
        var s := Sample(time, input, output, k - 1);
        if !HasNaN(s) {
          var ff := Decay(s.0, T, nm);
          assert ff.Fin? ==> ff.r >= 0.0;
          AccumulateNonNegative(prev, ff, s.1, s.2);
        }
      }
    }
  }

  lemma AccumulateNonNegative(acc: Acc, ff: Float, x: Float, y: Float)
    requires acc.xx.Fin? ==> acc.xx.r >= 0.0
    requires acc.yy.Fin? ==> acc.yy.r >= 0.0
    requires ff.Fin? ==> ff.r >= 0.0
    ensures var a := Accumulate(acc, ff, x, y);
      (a.xx.Fin? ==> a.xx.r >= 0.0) && (a.yy.Fin? ==> a.yy.r >= 0.0)
  {
    if ff.Fin? && acc.xx.Fin? && x.Fin? {
      assert ff.r * acc.xx.r >= 0.0;
      assert x.r * x.r >= 0.0;
    }
    if ff.Fin? && acc.yy.Fin? && y.Fin? {
      assert ff.r * acc.yy.r >= 0.0;
      assert y.r * y.r >= 0.0;
    }
  }

  function LagLabel(input: FrozenSeries, output: FrozenSeries): string
  {
    "lag(input=" + input.name + ", output=" + output.name + ")"
  }

  function Slopes(es: seq<Estimate>): (r: seq<Float>)
    ensures |r| == |es| && forall i :: 0 <= i < |es| ==> r[i] == es[i].slope
  {
    seq(|es|, i requires 0 <= i < |es| => es[i].slope)
  }

  function Lags(es: seq<Estimate>): (r: seq<Float>)
    ensures |r| == |es| && forall i :: 0 <= i < |es| ==> r[i] == es[i].lag
  {
    seq(|es|, i requires 0 <= i < |es| => es[i].lag)
  }

  function Errors(es: seq<Estimate>): (r: seq<Float>)
    ensures |r| == |es| && forall i :: 0 <= i < |es| ==> r[i] == es[i].error
  {
    seq(|es|, i requires 0 <= i < |es| => es[i].error)
  }

  /** The keys of the node `estimate_lag` returns, in the order its
      dictionary lists them. */
  const LagKeys := [Name("fitting_error"), Name("lag"), Name("slope")]

  /** The column of the estimates stored under `key`. */
  function Column(es: seq<Estimate>, key: Key): seq<Float>
  {
    if key == Name("fitting_error") then Errors(es)
    else if key == Name("lag") then Lags(es)
    else Slopes(es)
  }

  /** The node `estimate_lag` returns for the estimates `es`: one frozen
      series per key, labelled `<label>/<key>`. */
  function LagNode(name: string, es: seq<Estimate>): Nodes.Node
  {
    Nodes.Branch(name,
      map k | k in LagKeys :: Nodes.FrozenLeaf(FrozenSeries(name + "/" + KeyText(k), Column(es, k))),
      LagKeys)
  }

  /** `estimate_lag(time, input, output, T)`: the estimates, one per time
      step and at least one, the first always missing. */
  function EstimateLagAll(time: FrozenSeries, input: FrozenSeries, output: FrozenSeries, T: Float, nm: Numerics): (r: Result<seq<Estimate>>)
    ensures r.Success? <==> ReadsWithin(time.values, T, 0, |input.values|) && ReadsWithin(time.values, T, 0, |output.values| - 1)
    ensures r.Failure? ==> r.error == IndexOutOfRange
    ensures r.Success? ==> |r.value| == if |time.values| == 0 then 1 else |time.values|
    ensures r.Success? ==> r.value[0] == Missing
    ensures r.Success? ==> forall k :: 1 <= k < |time.values| && Nyquist(time.values, T, k - 1) ==> r.value[k] == Missing
    ensures r.Success? ==> forall k :: 0 <= k < |r.value| && r.value[k].slope.Fin? ==> !Lt(r.value[k].slope, Eps)
  {
    var rest :- LagFrom(time.values, input.values, output.values, T, nm, 0, Zero);
    var es := [Missing] + rest;
    assert forall k :: 1 <= k < |es| ==> es[k] == rest[k - 1];
    Success(es)
  }

  /** The values of the frozen series stored under `key` in `n`, if any. */
  function ColumnIn(n: Nodes.Node, key: string): seq<Float>
  {
    if n.Branch? && Name(key) in n.children && n.children[Name(key)].FrozenLeaf? then
      n.children[Name(key)].frozen.values
    else []
  }

  /** `estimate_lag(time, input, output, T)`: a node labelled
      `lag(input=.., output=..)` whose three children `fitting_error`,
      `lag` and `slope` are frozen series labelled `<label>/<key>`, one
      value per time step (at least one), the first one NaN, and every
      finite slope at least `1e-10`. */
  function EstimateLag(time: FrozenSeries, input: FrozenSeries, output: FrozenSeries, T: Float, nm: Numerics): (r: Result<Nodes.Node>)
    ensures r.Success? <==> Regressable(time.values, input.values, output.values, T)
    ensures r.Failure? ==> r.error == IndexOutOfRange
    ensures r.Success? ==>
      var n := r.value;
      && n.Branch? && n.name == LagLabel(input, output) && n.order == LagKeys
      && n.children.Keys == set k | k in LagKeys
      && forall k :: k in LagKeys ==>
           k in n.children && n.children[k].FrozenLeaf? && n.children[k].frozen.name == LagLabel(input, output) + "/" + KeyText(k)
    ensures r.Success? ==>
      var len := if |time.values| == 0 then 1 else |time.values|;
      && |ColumnIn(r.value, "slope")| == len && |ColumnIn(r.value, "lag")| == len && |ColumnIn(r.value, "fitting_error")| == len
      && ColumnIn(r.value, "slope")[0] == NaN && ColumnIn(r.value, "lag")[0] == NaN && ColumnIn(r.value, "fitting_error")[0] == NaN
      && forall j :: 0 <= j < len && ColumnIn(r.value, "slope")[j].Fin? ==> !Lt(ColumnIn(r.value, "slope")[j], Eps)
    ensures r.Success? ==>
      var es := EstimateLagAll(time, input, output, T, nm).value;
      forall j :: 0 <= j < |es| ==>
        && ColumnIn(r.value, "slope")[j] == es[j].slope
        && ColumnIn(r.value, "lag")[j] == es[j].lag
        && ColumnIn(r.value, "fitting_error")[j] == es[j].error
  {
    var es :- EstimateLagAll(time, input, output, T, nm);
    LagNodeColumns(LagLabel(input, output), es);
    Success(LagNode(LagLabel(input, output), es))
  }

  /** The shape of the node built from the estimates: three frozen
      children in key order, each holding its column. */
  lemma LagNodeColumns(name: string, es: seq<Estimate>)
    ensures var n := LagNode(name, es);
      && n.Branch? && n.name == name && n.order == LagKeys
      && n.children.Keys == set k | k in LagKeys
      && (forall k :: k in LagKeys ==>
            k in n.children && n.children[k].FrozenLeaf? && n.children[k].frozen.name == name + "/" + KeyText(k))
      && ColumnIn(n, "slope") == Slopes(es) && ColumnIn(n, "lag") == Lags(es) && ColumnIn(n, "fitting_error") == Errors(es)
  {
    LagNodeColumn(name, es, 0);
    LagNodeColumn(name, es, 1);
    LagNodeColumn(name, es, 2);
  }

  lemma LagNodeColumn(name: string, es: seq<Estimate>, j: nat)
    requires j < 3
    ensures var n := LagNode(name, es); var k := LagKeys[j];
      ColumnIn(n, KeyText(k)) == Column(es, k)
  {
    var k := LagKeys[j];
    assert k in LagKeys;
    assert Name(KeyText(k)) == k;
  }

  /** The node fits the tree: its children carry the labels the tree gives
      children. */
  lemma LagNodeChildLabels(input: FrozenSeries, output: FrozenSeries, es: seq<Estimate>)
    ensures var name := LagLabel(input, output); var n := LagNode(name, es);
      forall k :: k in n.children ==> Nodes.Label(n.children[k]) == Nodes.ChildLabel(name, k)
  {
    var name := LagLabel(input, output);
    var front := "lag(input=" + input.name + ", output=" + output.name;
    assert name == front + ")";
    assert name[|name| - 1] == ')';
    ChildLabels(name, es);
  }

  lemma ChildLabels(name: string, es: seq<Estimate>)
    requires !EndsWith(name, '/')
    ensures var n := LagNode(name, es);
      forall k :: k in n.children ==> Nodes.Label(n.children[k]) == Nodes.ChildLabel(name, k)
  {
  }

  /** The node lists exactly its three series, labelled `<label>/<key>`, in
      the order of `LagKeys`. */
  lemma LagNodeListed(name: string, es: seq<Estimate>)
    ensures var l := Nodes.ListLabels(LagNode(name, es));
      |l| == 3 && forall j :: 0 <= j < 3 ==> l[j] == name + "/" + LagKeys[j].name
  {
    ListedHead(name, es);
  }

  lemma ListedHead(name: string, es: seq<Estimate>)
    ensures Nodes.ListFrom(LagNode(name, es), 0)
      == [name + "/" + LagKeys[0].name, name + "/" + LagKeys[1].name, name + "/" + LagKeys[2].name]
  {
    ListedFrom(name, es, 0);
    ListedTail(name, es);
  }

  lemma ListedTail(name: string, es: seq<Estimate>)
    ensures Nodes.ListFrom(LagNode(name, es), 1) == [name + "/" + LagKeys[1].name, name + "/" + LagKeys[2].name]
  {
    ListedFrom(name, es, 1);
    ListedFrom(name, es, 2);
  }

  lemma ListedFrom(name: string, es: seq<Estimate>, j: nat)
    requires j < 3
    ensures var n := LagNode(name, es);
      Nodes.ListFrom(n, j) == [name + "/" + LagKeys[j].name] + (if j == 2 then [] else Nodes.ListFrom(n, j + 1))
  {
    var k := LagKeys[j];
    assert !StartsWith(k.name, '_');
    assert Nodes.Visible(k);
  }

  /** A NaN time constant passes every sampling check, turns the
      accumulator into NaN at the first step that reads finite values, and
      leaves every estimate missing. */
  lemma EstimateLagNaNTimeConstant(time: FrozenSeries, input: FrozenSeries, output: FrozenSeries, nm: Numerics)
    requires NaNStrict(nm) && EstimateLagAll(time, input, output, NaN, nm).Success?
    ensures forall k :: 0 <= k < |EstimateLagAll(time, input, output, NaN, nm).value| ==>
      EstimateLagAll(time, input, output, NaN, nm).value[k] == Missing
  {
    LagFromNaNTimeConstant(time.values, input.values, output.values, nm, 0, Zero);
    var rest := LagFrom(time.values, input.values, output.values, NaN, nm, 0, Zero).value;
    assert EstimateLagAll(time, input, output, NaN, nm).value == [Missing] + rest;
  }

  lemma {:induction false} LagFromNaNTimeConstant(time: seq<Float>, input: seq<Float>, output: seq<Float>, nm: Numerics, i: nat, acc: Acc)
    requires NaNStrict(nm)
    requires acc == Zero || (acc.xx.NaN? && acc.xy.NaN? && acc.yy.NaN?)
    requires LagFrom(time, input, output, NaN, nm, i, acc).Success?
    ensures forall p :: 0 <= p < |LagFrom(time, input, output, NaN, nm, i, acc).value| ==>
      LagFrom(time, input, output, NaN, nm, i, acc).value[p] == Missing
    decreases |time| - i
  {
    if i + 1 < |time| {
      assert !Nyquist(time, NaN, i);
      var step := LagStep(time, input, output, NaN, nm, i, acc).value;
      var dt := Sub(time[i + 1], time[i]);
      assert Decay(dt, NaN, nm) == NaN;
      LagFromNaNTimeConstant(time, input, output, nm, i + 1, step.0);
    }
  }
}

=== FILE: generate_html.dfy ===
/** What the page generator checks and writes about the data itself: the
    JavaScript array literal of one series, and the rejection of a time
    axis with missing entries. */
module Html {
  import opened Common
  import opened Floats
  import opened Strings
  import opened Values
  import Indexed
  import Foxes

  // ---------------------------------------------------------------- __escape_null

  /** The text of one element: booleans as `1` or `0` (recognised before
      numbers), numbers other than NaN by `str`, strings verbatim, and
      everything else `null`. `isnan` converts an int to a float first, so
      an int too large for a float64 raises `OverflowError`. */
  function Token(v: Value, nm: Numerics): (r: Result<string>)
    ensures r.Failure? <==> v.Int? && FromInt(v.i).None?
    ensures r.Failure? ==> r.error == TooLarge
  {
    match v
    case Bool(b) => Success(if b then "1" else "0")
    case Int(i) => if FromInt(i).None? then Failure(TooLarge) else Success(IntToString(i))
    case Float(x) => Success(if x.Fin? then nm.show(x) else "null")
    case Str(s) => Success(s)
    case _ => Success("null")
  }

  /** Every element of `vs` has a token. */
  predicate Printable(vs: seq<Value>, nm: Numerics)
  {
    forall i :: 0 <= i < |vs| ==> Token(vs[i], nm).Success?
  }

  function Tokens(vs: seq<Value>, nm: Numerics): (r: seq<string>)
    requires Printable(vs, nm)
    ensures |r| == |vs| && forall i :: 0 <= i < |vs| ==> r[i] == Token(vs[i], nm).value
  {
    seq(|vs|, i requires 0 <= i < |vs| => Token(vs[i], nm).value)
  }

  /** `__escape_null(series)`: the tokens of the elements, in order,
      separated by `, ` and bracketed; `OverflowError` as soon as one
      element is an int too large for a float64. */
  function EscapeNull(vs: seq<Value>, nm: Numerics): (r: Result<string>)
    ensures r.Success? <==> forall i :: 0 <= i < |vs| ==> !(vs[i].Int? && FromInt(vs[i].i).None?)
    ensures r.Failure? ==> r.error == TooLarge
    ensures r.Success? ==> |r.value| >= 2 && r.value[0] == '[' && r.value[|r.value| - 1] == ']'
    ensures |vs| == 0 ==> r == Success("[]")
  {
    if !Printable(vs, nm) then Failure(TooLarge)
    else
      var ts := Tokens(vs, nm);
      assert |vs| == 0 ==> "[" + Join(ts, ", ") + "]" == "[]" by {
        if |vs| == 0 { assert Join(ts, ", ") == ""; }
      }
      Success("[" + Join(ts, ", ") + "]")
  }

  /** NaN and `None` print alike: replacing a NaN element by `None` leaves
      the literal unchanged. */
  lemma NaNPrintsAsNull(vs: seq<Value>, i: nat, nm: Numerics)
    requires i < |vs| && vs[i] == Float(NaN)
    ensures EscapeNull(vs[i := Null], nm) == EscapeNull(vs, nm)
  {
    var ws := vs[i := Null];
    assert Printable(ws, nm) <==> Printable(vs, nm) by {
      assert forall k :: 0 <= k < |vs| ==> Token(ws[k], nm) == Token(vs[k], nm);
    }
    if Printable(vs, nm) {
      assert Tokens(ws, nm) == Tokens(vs, nm);
    }
  }

  /** Booleans print as the integers 0 and 1. */
  lemma BoolPrintsAsInt(vs: seq<Value>, i: nat, nm: Numerics)
    requires i < |vs| && vs[i].Bool?
    ensures EscapeNull(vs[i := Int(if vs[i].b then 1 else 0)], nm) == EscapeNull(vs, nm)
  {
    var ws := vs[i := Int(if vs[i].b then 1 else 0)];
    assert IntToString(1) == "1" && IntToString(0) == "0";
    assert forall k :: 0 <= k < |vs| ==> Token(ws[k], nm) == Token(vs[k], nm);
    if Printable(vs, nm) {
      assert Tokens(ws, nm) == Tokens(vs, nm);
    }
  }

  /** Strings are inserted verbatim, without quotes or escaping. */
  lemma StringsVerbatim(vs: seq<Value>, ss: seq<string>, nm: Numerics)
    requires |vs| == |ss| && forall i :: 0 <= i < |vs| ==> vs[i] == Str(ss[i])
    ensures EscapeNull(vs, nm) == Success("[" + Join(ss, ", ") + "]")
  {
    assert Printable(vs, nm);
    assert Tokens(vs, nm) == ss;
  }

  /** A dictionary or a list prints as `null`, exactly like `None`. */
  lemma CompositePrintsAsNull(vs: seq<Value>, i: nat, nm: Numerics)
    requires i < |vs| && (vs[i].Dict? || vs[i].List?)
    ensures EscapeNull(vs[i := Null], nm) == EscapeNull(vs, nm)
  {
    var ws := vs[i := Null];
    assert Printable(ws, nm) <==> Printable(vs, nm) by {
      assert forall k :: 0 <= k < |vs| ==> Token(ws[k], nm) == Token(vs[k], nm);
    }
    if Printable(vs, nm) {
      assert Tokens(ws, nm) == Tokens(vs, nm);
    }
  }

  /** A single int without a float64 makes the whole literal raise. */
  lemma LargeIntRaises(vs: seq<Value>, i: nat, nm: Numerics)
    requires i < |vs| && vs[i].Int? && (vs[i].i <= -IntLimit || IntLimit <= vs[i].i)
    ensures EscapeNull(vs, nm) == Failure(TooLarge)
  {
    assert Token(vs[i], nm).Failure?;
  }

  // ---------------------------------------------------------------- reading back

  predicate AllDigits(s: string)
  {
    forall k :: 0 <= k < |s| ==> IsDigit(s[k])
  }

  /** How a JavaScript reader takes one element of an array of integers
      and nulls. */
  function ReadToken(t: string): Option<Value>
  {
    if t == "null" then Some(Null)
    else if |t| > 1 && t[0] == '-' && AllDigits(t[1..]) then Some(Int(0 - DigitsValue(t[1..])))
    else if |t| > 0 && AllDigits(t) then Some(Int(DigitsValue(t)))
    else None
  }

  /** One element between commas: surrounding spaces are ignored. */
  function ReadPiece(p: string): Option<Value>
  {
    ReadToken(Strip(p, ' '))
  }

  /** The elements between the commas, when every one of them reads. */
  function ReadTokens(parts: seq<string>): (r: Option<seq<Value>>)
    ensures r.Some? <==> forall i :: 0 <= i < |parts| ==> ReadPiece(parts[i]).Some?
    ensures r.Some? ==> |r.value| == |parts| && forall i :: 0 <= i < |parts| ==> Some(r.value[i]) == ReadPiece(parts[i])
  {
    if forall i :: 0 <= i < |parts| ==> ReadPiece(parts[i]).Some? then
      Some(seq(|parts|, i requires 0 <= i < |parts| => ReadPiece(parts[i]).value))
    else None
  }

  /** Reads an array literal of integers and nulls: brackets, then
      comma-separated elements with surrounding spaces ignored. */
  function ReadArray(s: string): Option<seq<Value>>
  {
    if |s| < 2 || s[0] != '[' || s[|s| - 1] != ']' then None
    else
      var inner := s[1..|s| - 1];
      if inner == "" then Some([]) else ReadTokens(Split(inner, ','))
  }

  /** The elements the literal carries faithfully: `None`, and the ints
      that have a float64. */
  predicate Plain(v: Value)
  {
    v.Null? || (v.Int? && -IntLimit < v.i < IntLimit)
  }

  /** A token of a plain element: non-empty, no comma, no space, and read
      back as the element. */
  lemma PlainToken(v: Value, nm: Numerics)
    requires Plain(v)
    ensures Token(v, nm).Success?
    ensures var t := Token(v, nm).value;
      && t != "" && ',' !in t && ' ' !in t
      && ReadToken(t) == Some(v)
  {
    if v.Int? {
      if v.i < 0 {
        NegativeToken(v.i);
      } else {
        NaturalToken(v.i);
      }
    }
  }

  lemma NaturalToken(n: nat)
    ensures var t := NatToString(n);
      && AllDigits(t) && ',' !in t && ' ' !in t && ReadToken(t) == Some(Int(n))
  {
    var t := NatToString(n);
    NatToStringRoundTrip(n);
    assert t != "null" by { assert IsDigit(t[0]); }
    assert t[0] != '-';
  }

  lemma NegativeToken(i: int)
    requires i < 0
    ensures var t := IntToString(i);
      && ',' !in t && ' ' !in t && ReadToken(t) == Some(Int(i))
  {
    NegativeTokenRead(i);
    NegativeTokenChars(i);
  }

  lemma NegativeTokenRead(i: int)
    requires i < 0
    ensures ReadToken(IntToString(i)) == Some(Int(i))
  {
    var n: nat := -i;
    var d := NatToString(n);
    NatToStringRoundTrip(n);
    ReadNegative(d);
    assert IntToString(i) == "-" + d;
  }

  /** A minus sign followed by digits reads as a negative integer. */
  lemma ReadNegative(d: string)
    requires |d| > 0 && AllDigits(d)
    ensures ReadToken("-" + d) == Some(Int(0 - DigitsValue(d)))
  {
    var t := "-" + d;
    assert t[1..] == d;
    assert t != "null" by { assert t[0] != "null"[0]; }
  }



  lemma NegativeTokenChars(i: int)
    requires i < 0
    ensures ',' !in IntToString(i) && ' ' !in IntToString(i)
  {
    var t := IntToString(i);
    var d := NatToString(-i);
    NegativeDigits(i);
    forall k | 0 <= k < |t| ensures t[k] != ',' && t[k] != ' ' {
      if k > 0 { assert t[k] == d[k - 1]; }
    }
  }

  /** Every token after the first, with the space the separator puts
      before it. */
  function Spaced(ts: seq<string>): (r: seq<string>)
    ensures |r| == |ts| && forall i :: 0 <= i < |ts| ==> r[i] == " " + ts[i]
  {
    seq(|ts|, i requires 0 <= i < |ts| => " " + ts[i])
  }

  /** Joining by `, ` is joining by `,` with a space before every token but
      the first. */
  lemma {:induction false} JoinSpaced(ts: seq<string>)
    requires |ts| >= 1
    ensures " " + Join(ts, ", ") == Join(Spaced(ts), ",")
  {
    if |ts| > 1 {
      JoinSpaced(ts[1..]);
      assert Spaced(ts)[1..] == Spaced(ts[1..]);
      assert " " + Join(ts, ", ") == (" " + ts[0]) + "," + (" " + Join(ts[1..], ", "));
    }
  }

  /** What lies between the commas of the joined tokens. */
  function Pieces(ts: seq<string>): (r: seq<string>)
    requires |ts| >= 1
    ensures |r| == |ts| && r[0] == ts[0]
    ensures forall i :: 1 <= i < |ts| ==> r[i] == " " + ts[i]
  {
    [ts[0]] + Spaced(ts[1..])
  }

  lemma JoinByComma(ts: seq<string>)
    requires |ts| >= 1
    ensures Join(ts, ", ") == Join(Pieces(ts), ",")
  {
    var pieces := Pieces(ts);
    if |ts| > 1 {
      var x := Join(ts[1..], ", ");
      JoinSpaced(ts[1..]);
      assert pieces[1..] == Spaced(ts[1..]);
      assert Join(pieces, ",") == ts[0] + "," + (" " + x);
      assert Join(ts, ", ") == ts[0] + ", " + x;
      CommaSpace(ts[0], x);
    } else {
      assert pieces == [ts[0]];
    }
  }

  lemma CommaSpace(a: string, x: string)
    ensures a + ", " + x == a + "," + (" " + x)
  {
    assert ", " == "," + " ";
    assert (a + ",") + " " == a + ", ";
  }

  /** A plain token carries no surrounding spaces, with or without the
      one the separator puts before it. */
  lemma StripToken(v: Value, nm: Numerics)
    requires Plain(v)
    ensures Token(v, nm).Success?
    ensures Strip(Token(v, nm).value, ' ') == Token(v, nm).value
    ensures Strip(" " + Token(v, nm).value, ' ') == Token(v, nm).value
  {
    var t := Token(v, nm).value;
    PlainToken(v, nm);
    assert !StartsWith(t, ' ') && !EndsWith(t, ' ');
    StripNothing(t, ' ');
    StripLeading(t, ' ');
    assert " " + t == [' '] + t;
  }

  /** A plain element reads back from its token, with or without the space
      before it. */
  lemma ReadOne(v: Value, nm: Numerics)
    requires Plain(v)
    ensures Token(v, nm).Success?
    ensures ReadPiece(Token(v, nm).value) == Some(v)
    ensures ReadPiece(" " + Token(v, nm).value) == Some(v)
  {
    StripToken(v, nm);
    PlainToken(v, nm);
  }

  lemma PieceReads(vs: seq<Value>, nm: Numerics, i: nat)
    requires i < |vs| && forall k :: 0 <= k < |vs| ==> Plain(vs[k])
    ensures Printable(vs, nm) && ReadPiece(Pieces(Tokens(vs, nm))[i]) == Some(vs[i])
  {
    PlainPrintable(vs, nm);
    ReadOne(vs[i], nm);
  }

  /** Plain elements always have a token. */
  lemma PlainPrintable(vs: seq<Value>, nm: Numerics)
    requires forall i :: 0 <= i < |vs| ==> Plain(vs[i])
    ensures Printable(vs, nm)
  {
    forall i | 0 <= i < |vs| ensures Token(vs[i], nm).Success? {
      PlainToken(vs[i], nm);
    }
  }

  /** Pieces that each read as the matching element read as the list. */
  lemma ReadAll(parts: seq<string>, vs: seq<Value>)
    requires |parts| == |vs| && forall i :: 0 <= i < |parts| ==> ReadPiece(parts[i]) == Some(vs[i])
    ensures ReadTokens(parts) == Some(vs)
  {
    var r := ReadTokens(parts);
    assert r.Some?;
    forall i | 0 <= i < |vs| ensures r.value[i] == vs[i] {
      assert Some(r.value[i]) == ReadPiece(parts[i]);
    }
    assert r.value == vs;
  }

  /** The pieces between the commas read back as the plain elements. */
  lemma ReadPieces(vs: seq<Value>, nm: Numerics)
    requires |vs| > 0 && forall i :: 0 <= i < |vs| ==> Plain(vs[i])
    ensures Printable(vs, nm) && ReadTokens(Pieces(Tokens(vs, nm))) == Some(vs)
  {
    PlainPrintable(vs, nm);
    var pieces := Pieces(Tokens(vs, nm));
    forall i | 0 <= i < |vs| ensures ReadPiece(pieces[i]) == Some(vs[i]) {
      PieceReads(vs, nm, i);
    }
    ReadAll(pieces, vs);
  }

  /** For series of nulls and of integers that have a float64, the literal
      exists and reads back as the series. */
  lemma EscapeRoundTrip(vs: seq<Value>, nm: Numerics)
    requires forall i :: 0 <= i < |vs| ==> Plain(vs[i])
    ensures EscapeNull(vs, nm).Success? && ReadArray(EscapeNull(vs, nm).value) == Some(vs)
  {
    PlainPrintable(vs, nm);
    var s := EscapeNull(vs, nm).value;
    var ts := Tokens(vs, nm);
    var body := Join(ts, ", ");
    assert s[1..|s| - 1] == body;
    if |vs| > 0 {
      var pieces := Pieces(ts);
      JoinByComma(ts);
      PlainToken(vs[0], nm);
      JoinEnds(pieces, ",");
      assert body != "";
      forall i | 0 <= i < |pieces| ensures ',' !in pieces[i] {
        PlainToken(vs[i], nm);
        if i > 0 { assert pieces[i] == " " + ts[i]; }
      }
      SplitJoin(pieces, ',');
      ReadPieces(vs, nm);
    }
  }

  // ---------------------------------------------------------------- the time axis

  /** `generate_html` refuses a time series holding `None`. */
  function CheckTime(times: seq<Value>): (r: Result<seq<Value>>)
    ensures r.Success? <==> Null !in times
    ensures r.Failure? ==> r.error == NoneInTime
    ensures r.Success? ==> r.value == times
  {
    if Null in times then Failure(NoneInTime) else Success(times)
  }

  /** The default time axis of `plot`, `0.0, 1.0, ..`, always passes. */
  lemma DefaultAxisPasses(f: Foxes.Fox)
    requires f.time.None?
    ensures Foxes.PlotTimes(f, None).times.Success?
    ensures CheckTime(Foxes.PlotTimes(f, None).times.value).Success?
  {
    var ts := Foxes.PlotTimes(f, None).times.value;
    assert forall i :: 0 <= i < |ts| ==> ts[i].Float?;
  }

  /** A time series read from the data passes exactly when it has a value
      other than `None` at every step unpacked so far. */
  lemma RecordedAxisPasses(s: Indexed.IndexedSeries, n: nat)
    ensures CheckTime(Indexed.Get(s, n)).Success? <==>
      forall i :: 0 <= i < n ==> i in s.data && s.data[i] != Null
  {
    var ts := Indexed.Get(s, n);
    if Null in ts {
      var i :| 0 <= i < |ts| && ts[i] == Null;
      assert !(i in s.data && s.data[i] != Null);
    }
  }
}

=== FILE: hot_series.dfy ===
/** The accumulator of the freeze pipeline: written like the forward-filling
    series, then frozen once into a float64 `FrozenSeries`. */
module Hot {
  import opened Common
  import opened Floats
  import opened Values
  import Filled
  import opened Frozen

  datatype HotSeries = HotSeries(name: string, indexedValues: map<nat, Value>)

  /** `_update`: the value at `index` is overwritten, nothing else changes. */
  function Update(s: HotSeries, index: nat, v: Value): (r: HotSeries)
    ensures r.name == s.name
    ensures r.indexedValues.Keys == s.indexedValues.Keys + {index}
    ensures r.indexedValues[index] == v
    ensures forall j :: j in s.indexedValues && j != index ==> r.indexedValues[j] == s.indexedValues[j]
  {
    HotSeries(s.name, s.indexedValues[index := v])
  }

  /** `__len__`: the number of distinct written steps. */
  function Len(s: HotSeries): (r: nat)
    ensures r == |s.indexedValues.Keys|
  {
    |s.indexedValues|
  }

  /** The length grows by one for a new step and stays for an overwrite. */
  lemma LenAfterUpdate(s: HotSeries, index: nat, v: Value)
    ensures Len(Update(s, index, v)) == if index in s.indexedValues then Len(s) else Len(s) + 1
  {
    if index in s.indexedValues {
      assert s.indexedValues[index := v].Keys == s.indexedValues.Keys;
    } else {
      assert s.indexedValues[index := v].Keys == s.indexedValues.Keys + {index};
    }
  }

  /** How `np.array(.., dtype=np.float64)` converts one element: `None` is
      NaN, booleans are 1.0 and 0.0, ints keep their value unless they are
      too large for a float64, floats are themselves, strings are parsed,
      and dictionaries have no conversion. A list has none in this
      one-dimensional model. */
  function ToFloat(v: Value, nm: Numerics): (r: Option<Float>)
    ensures v.Null? ==> r == Some(NaN)
    ensures v.Bool? ==> r == Some(Fin(if v.b then 1.0 else 0.0))
    ensures v.Int? ==> (r.Some? <==> -IntLimit < v.i < IntLimit)
    ensures v.Int? && r.Some? ==> r.value == Fin(v.i as real)
    ensures v.Float? ==> r == Some(v.x)
    ensures IsComposite(v) ==> r.None?
  {
    match v
    case Null => Some(NaN)
    case Bool(b) => Some(Fin(if b then 1.0 else 0.0))
    case Int(i) => FromInt(i)
    case Float(x) => Some(x)
    case Str(s) => nm.parse(s)
    case Dict(_) => None
    case List(_) => None
  }

  /** Converts a whole list: fails if any one element has no conversion. */
  function ToArray(vs: seq<Value>, nm: Numerics): (r: Result<seq<Float>>)
    ensures r.Success? <==> forall k :: 0 <= k < |vs| ==> ToFloat(vs[k], nm).Some?
    ensures r.Success? ==> |r.value| == |vs|
    ensures r.Success? ==> forall k :: 0 <= k < |vs| ==> r.value[k] == ToFloat(vs[k], nm).value
    ensures r.Failure? ==> r.error == NotConvertible
  {
    if |vs| == 0 then Success([])
    else
      match ToFloat(vs[0], nm)
      case None => Failure(NotConvertible)
      case Some(x) =>
        var rest := ToArray(vs[1..], nm);
        if rest.Failure? then
          assert !ToFloat(vs[1..][0], nm).Some? || exists k :: 1 <= k < |vs| && !ToFloat(vs[k], nm).Some? by {
            var k :| 0 <= k < |vs[1..]| && !ToFloat(vs[1..][k], nm).Some?;
            assert vs[1..][k] == vs[k + 1];
          }
          Failure(NotConvertible)
        else
          Success([x] + rest.value)
  }

  /** `_freeze(n)`: the forward-filled read-out of `n` steps, converted to
      float64, under the same label. */
  function Freeze(s: HotSeries, n: nat, nm: Numerics): (r: Result<FrozenSeries>)
    ensures r.Success? <==> forall k :: 0 <= k < n ==> ToFloat(Filled.Fill(s.indexedValues, n)[k], nm).Some?
    ensures r.Success? ==> r.value.name == s.name && |r.value.values| == n
    ensures r.Success? ==> forall k :: 0 <= k < n && (forall j :: 0 <= j <= k ==> j !in s.indexedValues) ==> r.value.values[k] == NaN
    ensures r.Success? ==> forall k :: 0 <= k < n && k in s.indexedValues ==> Some(r.value.values[k]) == ToFloat(s.indexedValues[k], nm)
    ensures r.Success? ==> forall k :: 0 < k < n && k !in s.indexedValues ==> r.value.values[k] == r.value.values[k - 1]
  {
    var filled := Filled.Fill(s.indexedValues, n);
    var values :- ToArray(filled, nm);
    Success(FrozenSeries(s.name, values))
  }

  /** Writes at steps `n` and beyond take no part in freezing `n` steps: not
      even a write with no float conversion makes it fail. */
  lemma {:induction false} FreezeIgnoresLaterWrites(s: HotSeries, n: nat, index: nat, v: Value, nm: Numerics)
    requires index >= n
    ensures Freeze(Update(s, index, v), n, nm) == Freeze(s, n, nm)
  {
    var a := Filled.Fill(Update(s, index, v).indexedValues, n);
    var b := Filled.Fill(s.indexedValues, n);
    FillIgnoresLaterWrites(s.indexedValues, n, index, v);
    assert a == b;
  }

  lemma {:induction false} FillIgnoresLaterWrites(data: map<nat, Value>, n: nat, index: nat, v: Value)
    requires index >= n
    ensures Filled.Fill(data[index := v], n) == Filled.Fill(data, n)
  {
    var a := Filled.Fill(data[index := v], n);
    Filled.FillUnique(data, n, a);
  }
}

=== FILE: indexed_series.dfy ===
/** The leaf accumulator of the schema tree: a sparse map from step index to
    the raw value written at that step, read out with no fill. */
module Indexed {
  import opened Values

  datatype IndexedSeries = IndexedSeries(name: string, data: map<nat, Value>)

  /** A new accumulator: the label given, nothing written. */
  function New(name: string): (s: IndexedSeries)
    ensures s.name == name && |s.data| == 0
  {
    IndexedSeries(name, map[])
  }

  /** `_update`: the value at `index` is overwritten, nothing else changes. */
  function Update(s: IndexedSeries, index: nat, v: Value): (r: IndexedSeries)
    ensures r.name == s.name
    ensures r.data.Keys == s.data.Keys + {index}
    ensures r.data[index] == v
    ensures forall j :: j in s.data && j != index ==> r.data[j] == s.data[j]
  {
    IndexedSeries(s.name, s.data[index := v])
  }

  /** The entry the read-out shows at step `i`. */
  function At(s: IndexedSeries, i: nat): Value
  {
    if i in s.data then s.data[i] else Null
  }

  /** `_get(n)`: one entry per step `0 .. n-1`, the written value or `None`.
      Writes at steps `n` and beyond do not show. */
  function Get(s: IndexedSeries, n: nat): (r: seq<Value>)
    ensures |r| == n
    ensures forall i :: 0 <= i < n && i in s.data ==> r[i] == s.data[i]
    ensures forall i :: 0 <= i < n && i !in s.data ==> r[i] == Null
  {
    if n == 0 then [] else Get(s, n - 1) + [At(s, n - 1)]
  }

  /** `_list_labels`: a leaf lists exactly its own label. */
  function ListLabels(s: IndexedSeries): (r: seq<string>)
    ensures r == [s.name]
  {
    [s.name]
  }

  /** The last write at a step wins. */
  lemma LastWriteWins(s: IndexedSeries, i: nat, a: Value, b: Value)
    ensures Update(Update(s, i, a), i, b) == Update(s, i, b)
  {
  }

  /** A write at step `i` shows at position `i` of every read-out that
      reaches it, and nowhere else. */
  lemma {:induction false} GetAfterUpdate(s: IndexedSeries, i: nat, v: Value, n: nat)
    ensures i < n ==> Get(Update(s, i, v), n) == Get(s, n)[i := v]
    ensures i >= n ==> Get(Update(s, i, v), n) == Get(s, n)
  {
    var a := Get(Update(s, i, v), n);
    var b := Get(s, n);
    if i < n {
      assert forall k :: 0 <= k < n ==> a[k] == b[i := v][k];
    } else {
      assert forall k :: 0 <= k < n ==> a[k] == b[k];
    }
  }

  /** No fill: a read-out holds `None` exactly where nothing was written
      (or where `None` itself was written). */
  lemma NoFill(s: IndexedSeries, n: nat, i: nat)
    requires i < n
    ensures Get(s, n)[i] == Null <==> i !in s.data || s.data[i] == Null
  {
  }
}

=== FILE: node.dfy ===
/** The schema-discovery tree: branches mirror the nesting of the records,
    leaves accumulate the scalar values found at one path. */
module Nodes {
  import opened Common
  import opened Strings
  import opened Values
  import Indexed
  import Frozen

  /** A branch maps each key of the Python object's attribute dictionary
      to its child and remembers the order in which the keys were first
      inserted (the dictionary's iteration order). A `FrozenLeaf` only
      occurs in the node that `estimate_lag` builds. */
  datatype Node =
    | Branch(name: string, children: map<Key, Node>, order: seq<Key>)
    | Leaf(series: Indexed.IndexedSeries)
    | FrozenLeaf(frozen: Frozen.FrozenSeries)

  function Label(n: Node): string
  {
    match n
    case Branch(name, _, _) => name
    case Leaf(s) => s.name
    case FrozenLeaf(f) => f.name
  }

  predicate SameKind(a: Node, b: Node)
  {
    a.Branch? == b.Branch? && a.Leaf? == b.Leaf? && a.FrozenLeaf? == b.FrozenLeaf?
  }

  /** The order lists every key of the children exactly once. */
  predicate Ordered(children: map<Key, Node>, order: seq<Key>)
  {
    && (forall i, j :: 0 <= i < j < |order| ==> order[i] != order[j])
    && (forall k :: k in children ==> k in order)
    && (forall i :: 0 <= i < |order| ==> order[i] in children)
  }

  // ---------------------------------------------------------------- children

  /** `self.__dict__[key] = child`: a new key goes to the end of the
      iteration order, an existing key keeps its place. */
  function Put(n: Node, k: Key, c: Node): (r: Node)
    requires n.Branch?
    ensures r.Branch? && r.name == n.name
    ensures r.children.Keys == n.children.Keys + {k} && r.children[k] == c
    ensures forall k' :: k' in n.children && k' != k ==> r.children[k'] == n.children[k']
    ensures k in n.children ==> r.order == n.order
    ensures k !in n.children ==> r.order == n.order + [k]
  {
    Branch(n.name, n.children[k := c], if k in n.children then n.order else n.order + [k])
  }

  /** Binding a key keeps the order in step with the children. */
  lemma PutOrdered(n: Node, k: Key, c: Node)
    requires n.Branch? && Ordered(n.children, n.order)
    ensures Ordered(Put(n, k, c).children, Put(n, k, c).order)
  {
  }

  // ---------------------------------------------------------------- labels

  /** The label a new child receives: the parent's label, a `/` unless the
      parent's label already ends in one, then the key. */
  function ChildLabel(parent: string, k: Key): string
  {
    parent + (if EndsWith(parent, '/') then "" else "/") + KeyText(k)
  }

  /** The child created the first time key `k` appears with value `v`: a
      branch for a dictionary or list, an indexed series for anything
      else. */
  function Fresh(parent: string, k: Key, v: Value): (c: Node)
    ensures c.Branch? <==> IsComposite(v)
    ensures c.Leaf? <==> !IsComposite(v)
    ensures Label(c) == ChildLabel(parent, k)
    ensures c.Branch? ==> c.children == map[] && c.order == []
    ensures c.Leaf? ==> c.series.data == map[]
  {
    if IsComposite(v) then Branch(ChildLabel(parent, k), map[], [])
    else Leaf(Indexed.New(ChildLabel(parent, k)))
  }

  /** The child that receives the value of key `k`: the existing one, or a
      fresh one. */
  function Prior(n: Node, k: Key, v: Value): Node
    requires n.Branch?
  {
    if k in n.children then n.children[k] else Fresh(n.name, k, v)
  }

  // ---------------------------------------------------------------- _update

  /** `_update(index, value)`. A leaf stores the value. A branch iterates
      the dictionary's items or the list's positions, creating missing
      children, and updates each child with its value. A branch given
      anything that is not a dictionary or list raises; what was updated
      before the exception stays updated. */
  function Update(n: Node, index: nat, v: Value): (r: Outcome<Node>)
    ensures SameKind(r.state, n) && Label(r.state) == Label(n)
    ensures n.Leaf? ==> r == Completed(Leaf(Indexed.Update(n.series, index, v)))
    ensures n.FrozenLeaf? ==> r == Completed(n)
    ensures n.Branch? && !IsComposite(v) ==> r == Raised(n)
    decreases v, 1
  {
    match n
    case Leaf(s) => Completed(Leaf(Indexed.Update(s, index, v)))
    case FrozenLeaf(_) =>
      // `FrozenSeries` inherits `_update` from the forward-filling series.
      // The dictionary it writes is never read through a `FrozenSeries`,
      // whose `values` are what every reader uses.
      Completed(n)
    case Branch(_, _, _) =>
      if !IsComposite(v) then Raised(n) else UpdateItems(n, Items(v), Child(index, v))
  }

  /** `child._update(index, value)` for the values found inside `v`. */
  function Child(index: nat, v: Value): (f: (Node, Value) --> Outcome<Node>)
    decreases v, 0
  {
    (c: Node, w: Value) requires w < v => Update(c, index, w)
  }

  /** `f` can be applied to any child and the value of any pair. */
  ghost predicate Applies(f: (Node, Value) --> Outcome<Node>, items: seq<(Key, Value)>)
  {
    forall c: Node, q :: 0 <= q < |items| ==> f.requires(c, items[q].1)
  }

  /** `f` keeps the kind and the label of the child it updates. */
  ghost predicate KeepsKind(f: (Node, Value) --> Outcome<Node>, items: seq<(Key, Value)>)
    requires Applies(f, items)
  {
    forall c: Node, q :: 0 <= q < |items| ==>
      SameKind(f(c, items[q].1).state, c) && Label(f(c, items[q].1).state) == Label(c)
  }

  /** The update of a branch's children applies `Child` to every pair. */
  lemma ChildApplies(index: nat, v: Value)
    requires IsComposite(v)
    ensures Applies(Child(index, v), Items(v)) && KeepsKind(Child(index, v), Items(v))
    ensures forall c: Node, q :: 0 <= q < |Items(v)| ==>
      Child(index, v)(c, Items(v)[q].1) == Update(c, index, Items(v)[q].1)
  {
  }

  /** What one turn of the loop does to the child of `item`'s key (the
      existing one or a fresh one). */
  function Turn(n: Node, item: (Key, Value), f: (Node, Value) --> Outcome<Node>): Outcome<Node>
    requires n.Branch? && f.requires(Prior(n, item.0, item.1), item.1)
  {
    f(Prior(n, item.0, item.1), item.1)
  }

  /** The loop of `_update` over `items`, with `f` the update of one
      child. The new child is stored before it is updated, so it stays
      even when its update raises. */
  function UpdateItems(n: Node, items: seq<(Key, Value)>, f: (Node, Value) --> Outcome<Node>): (r: Outcome<Node>)
    requires n.Branch? && Applies(f, items)
    ensures r.state.Branch? && r.state.name == n.name
    decreases |items|
  {
    if |items| == 0 then Completed(n)
    else
      var u := Turn(n, items[0], f);
      var next := Put(n, items[0].0, u.state);
      if u.Raised? then Raised(next) else UpdateItems(next, items[1..], f)
  }

  /** `b` extends `a`: every child of `a` is still there with the same
      kind, and the order of `a` is a prefix of the order of `b`. */
  predicate Grows(a: Node, b: Node)
    requires a.Branch? && b.Branch?
  {
    && a.children.Keys <= b.children.Keys
    && (forall k :: k in a.children ==> SameKind(b.children[k], a.children[k]))
    && a.order <= b.order
  }

  lemma GrowsTrans(a: Node, b: Node, c: Node)
    requires a.Branch? && b.Branch? && c.Branch? && Grows(a, b) && Grows(b, c)
    ensures Grows(a, c)
  {
  }

  /** Storing a child of the kind of the one it replaces extends a branch. */
  lemma PutGrows(n: Node, k: Key, c: Node, w: Value)
    requires n.Branch? && SameKind(c, Prior(n, k, w))
    ensures Grows(n, Put(n, k, c))
  {
  }

  /** Children already present keep their key and kind, and the order only
      grows at its end. */
  lemma {:induction false} ItemsKeep(n: Node, items: seq<(Key, Value)>, f: (Node, Value) --> Outcome<Node>)
    requires n.Branch? && Applies(f, items) && KeepsKind(f, items)
    ensures Grows(n, UpdateItems(n, items, f).state)
    decreases |items|
  {
    if |items| > 0 {
      var u := Turn(n, items[0], f);
      var next := Put(n, items[0].0, u.state);
      PutGrows(n, items[0].0, u.state, items[0].1);
      if u.Completed? {
        ItemsKeep(next, items[1..], f);
        GrowsTrans(n, next, UpdateItems(n, items, f).state);
      }
    }
  }

  /** Keys that do not occur among `items` keep their child, and keys that
      are new afterwards all occur among them. */
  lemma {:induction false} ItemsUntouched(n: Node, items: seq<(Key, Value)>, f: (Node, Value) --> Outcome<Node>)
    requires n.Branch? && Applies(f, items) && KeepsKind(f, items)
    ensures var r := UpdateItems(n, items, f).state;
      && (forall k :: k in n.children && !HasKey(items, k) ==> k in r.children && r.children[k] == n.children[k])
      && (forall k :: k in r.children && k !in n.children ==> HasKey(items, k))
      && (forall p :: |n.order| <= p < |r.order| ==> HasKey(items, r.order[p]))
    decreases |items|
  {
    if |items| > 0 {
      var u := Turn(n, items[0], f);
      var next := Put(n, items[0].0, u.state);
      if u.Completed? {
        ItemsUntouched(next, items[1..], f);
        ItemsKeep(next, items[1..], f);
      }
    }
  }

  /** A completed loop leaves a child for every key among `items`. */
  lemma {:induction false} ItemsCover(n: Node, items: seq<(Key, Value)>, f: (Node, Value) --> Outcome<Node>)
    requires n.Branch? && Applies(f, items) && KeepsKind(f, items)
    requires UpdateItems(n, items, f).Completed?
    ensures forall q :: 0 <= q < |items| ==> items[q].0 in UpdateItems(n, items, f).state.children
    decreases |items|
  {
    if |items| > 0 {
      var next := Put(n, items[0].0, Turn(n, items[0], f).state);
      ItemsCover(next, items[1..], f);
      ItemsKeep(next, items[1..], f);
    }
  }

  /** Of a completed loop over pairs with distinct keys: the child of the
      `q`-th key is what turn `q` made of it. */
  lemma {:induction false} ItemsDeliver(n: Node, items: seq<(Key, Value)>, q: nat, f: (Node, Value) --> Outcome<Node>)
    requires n.Branch? && Applies(f, items) && KeepsKind(f, items)
    requires DistinctItems(items) && q < |items|
    requires UpdateItems(n, items, f).Completed?
    ensures var r := UpdateItems(n, items, f).state;
      items[q].0 in r.children && r.children[items[q].0] == Turn(n, items[q], f).state
    decreases q, 1
  {
    if q == 0 {
      ItemsDeliverFirst(n, items, f);
    } else {
      ItemsDeliverLater(n, items, q, f);
    }
  }

  lemma {:induction false} ItemsDeliverLater(n: Node, items: seq<(Key, Value)>, q: nat, f: (Node, Value) --> Outcome<Node>)
    requires n.Branch? && Applies(f, items) && KeepsKind(f, items)
    requires DistinctItems(items) && 0 < q < |items|
    requires UpdateItems(n, items, f).Completed?
    ensures var r := UpdateItems(n, items, f).state;
      items[q].0 in r.children && r.children[items[q].0] == Turn(n, items[q], f).state
    decreases q, 0
  {
    var next := Put(n, items[0].0, Turn(n, items[0], f).state);
    var rest := items[1..];
    ItemsStep(n, items, f);
    assert rest[q - 1] == items[q];
    assert Turn(next, rest[q - 1], f) == Turn(n, items[q], f) by {
      assert Prior(next, items[q].0, items[q].1) == Prior(n, items[q].0, items[q].1);
    }
    ItemsDeliver(next, rest, q - 1, f);
  }

  /** One completed turn of the loop: the rest of the loop runs on the
      updated branch with the remaining pairs. */
  lemma ItemsStep(n: Node, items: seq<(Key, Value)>, f: (Node, Value) --> Outcome<Node>)
    requires n.Branch? && Applies(f, items) && KeepsKind(f, items)
    requires DistinctItems(items) && 0 < |items|
    requires UpdateItems(n, items, f).Completed?
    ensures var next := Put(n, items[0].0, Turn(n, items[0], f).state);
      && Applies(f, items[1..]) && KeepsKind(f, items[1..]) && DistinctItems(items[1..])
      && UpdateItems(next, items[1..], f) == UpdateItems(n, items, f)
      && forall q :: 0 < q < |items| ==> items[q].0 != items[0].0
  {
  }

  /** The first turn's child survives the rest of the loop, whose keys all
      differ from it. */
  lemma ItemsDeliverFirst(n: Node, items: seq<(Key, Value)>, f: (Node, Value) --> Outcome<Node>)
    requires n.Branch? && Applies(f, items) && KeepsKind(f, items)
    requires DistinctItems(items) && 0 < |items|
    requires UpdateItems(n, items, f).Completed?
    ensures var r := UpdateItems(n, items, f).state;
      items[0].0 in r.children && r.children[items[0].0] == Turn(n, items[0], f).state
  {
    var k := items[0].0;
    var next := Put(n, k, Turn(n, items[0], f).state);
    assert UpdateItems(n, items, f) == UpdateItems(next, items[1..], f);
    ItemsUntouched(next, items[1..], f);
    HasKeyAt(items[1..], k);
  }

  // ---------------------------------------------------------------- invariants

  /** The shape every tree built by `_update` keeps: the order lists the
      child keys once each, every child is labelled from its parent's label
      and its key, every leaf is an indexed series, and every step index
      stored in a leaf is below `bound`. */
  predicate Valid(n: Node, bound: nat)
  {
    match n
    case Leaf(s) => forall i :: i in s.data ==> i < bound
    case FrozenLeaf(_) => false
    case Branch(name, children, order) =>
      && Ordered(children, order)
      && forall k :: k in children ==> Label(children[k]) == ChildLabel(name, k) && Valid(children[k], bound)
  }

  lemma {:induction false} ValidGrows(n: Node, bound: nat, bound': nat)
    requires Valid(n, bound) && bound <= bound'
    ensures Valid(n, bound')
    decreases n
  {
    match n
    case Leaf(_) =>
    case FrozenLeaf(_) =>
    case Branch(_, children, _) =>
      forall k | k in children ensures Valid(children[k], bound') {
        ValidGrows(children[k], bound, bound');
      }
  }

  /** `f` keeps every child valid. */
  ghost predicate KeepsValid(f: (Node, Value) --> Outcome<Node>, items: seq<(Key, Value)>, bound: nat)
    requires Applies(f, items)
  {
    forall c: Node, q :: 0 <= q < |items| && Valid(c, bound) ==> Valid(f(c, items[q].1).state, bound)
  }

  /** `_update` at a step below `bound` keeps the tree valid, whether it
      completes or raises halfway. */
  lemma {:induction false} UpdateValid(n: Node, index: nat, v: Value, bound: nat)
    requires Valid(n, bound) && index < bound
    ensures Valid(Update(n, index, v).state, bound)
    decreases v
  {
    if n.Branch? && IsComposite(v) {
      var f := Child(index, v);
      var items := Items(v);
      ChildApplies(index, v);
      forall c: Node, q | 0 <= q < |items| && Valid(c, bound)
        ensures Valid(f(c, items[q].1).state, bound)
      {
        UpdateValid(c, index, items[q].1, bound);
      }
      ItemsValid(n, items, f, bound);
    }
  }

  lemma {:induction false} ItemsValid(n: Node, items: seq<(Key, Value)>, f: (Node, Value) --> Outcome<Node>, bound: nat)
    requires n.Branch? && Applies(f, items) && KeepsKind(f, items) && KeepsValid(f, items, bound)
    requires Valid(n, bound)
    ensures Valid(UpdateItems(n, items, f).state, bound)
    decreases |items|
  {
    if |items| > 0 {
      var k := items[0].0;
      PriorValid(n, k, items[0].1, bound);
      var u := Turn(n, items[0], f);
      PutValid(n, k, u.state, bound);
      if u.Completed? {
        ItemsValid(Put(n, k, u.state), items[1..], f, bound);
      }
    }
  }

  /** The child about to be updated is valid and correctly labelled. */
  lemma PriorValid(n: Node, k: Key, v: Value, bound: nat)
    requires n.Branch? && Valid(n, bound)
    ensures Valid(Prior(n, k, v), bound) && Label(Prior(n, k, v)) == ChildLabel(n.name, k)
  {
  }

  /** Storing a valid, correctly labelled child keeps a branch valid. */
  lemma PutValid(n: Node, k: Key, c: Node, bound: nat)
    requires n.Branch? && Valid(n, bound)
    requires Valid(c, bound) && Label(c) == ChildLabel(n.name, k)
    ensures Valid(Put(n, k, c), bound)
  {
    PutOrdered(n, k, c);
  }

  // ---------------------------------------------------------------- what _update does

  /** `_update` of a branch by a dictionary or list, all in one statement:
      old children keep their key and kind, and those whose key is not in
      the record are untouched; the order only grows, by keys of the
      record; and when the update completes every key of the record has a
      child, which is the old child of that key (or a fresh one, typed by
      the value and labelled from the parent's label) updated with that
      key's value. */
  lemma UpdateBranch(n: Node, index: nat, v: Value)
    requires n.Branch? && IsComposite(v) && DistinctItems(Items(v))
    ensures var r := Update(n, index, v).state;
      && r.Branch? && r.name == n.name
      && n.order <= r.order
      && (forall k :: k in n.children ==> k in r.children && SameKind(r.children[k], n.children[k]))
      && (forall k :: k in n.children && !HasKey(Items(v), k) ==> r.children[k] == n.children[k])
      && (forall p :: |n.order| <= p < |r.order| ==> HasKey(Items(v), r.order[p]))
      && (Update(n, index, v).Completed? ==> forall q :: 0 <= q < |Items(v)| ==>
            var (k, w) := Items(v)[q];
            k in r.children && r.children[k] == Update(Prior(n, k, w), index, w).state)
      && (forall q :: 0 <= q < |Items(v)| && Items(v)[q].0 !in n.children ==>
            var (k, w) := Items(v)[q];
            Label(Prior(n, k, w)) == ChildLabel(n.name, k) && (Prior(n, k, w).Branch? <==> IsComposite(w)))
  {
    var f := Child(index, v);
    var items := Items(v);
    ChildApplies(index, v);
    ItemsUntouched(n, items, f);
    ItemsKeep(n, items, f);
    if Update(n, index, v).Completed? {
      forall q | 0 <= q < |items|
        ensures items[q].0 in Update(n, index, v).state.children
        ensures Update(n, index, v).state.children[items[q].0] == Update(Prior(n, items[q].0, items[q].1), index, items[q].1).state
      {
        ItemsDeliver(n, items, q, f);
      }
    }
  }

  // ---------------------------------------------------------------- _get_child

  /** `_get_child(keys)`: follows the keys one by one from this node and
      returns the indexed series the last one names. Path segments are
      strings, so they only ever match dictionary keys, never list
      positions. An empty path is Python's `IndexError`, a missing key its
      `KeyError`, a leaf met before the last key has no `_get_child`, and a
      last key naming anything but an indexed series raises. */
  function GetChild(n: Node, keys: seq<string>): (r: Result<Indexed.IndexedSeries>)
    ensures !n.Branch? ==> r == Failure(NotANode)
    ensures n.Branch? && |keys| == 0 ==> r == Failure(EmptyPath)
    ensures n.Branch? && |keys| > 0 && Name(keys[0]) !in n.children ==> r == Failure(MissingKey)
    ensures r.Success? ==> |keys| > 0 && Name(keys[0]) in n.children
    decreases n
  {
    match n
    case Leaf(_) => Failure(NotANode)
    case FrozenLeaf(_) => Failure(NotANode)
    case Branch(_, children, _) =>
      if |keys| == 0 then Failure(EmptyPath)
      else if Name(keys[0]) !in children then Failure(MissingKey)
      else
        var c := children[Name(keys[0])];
        if |keys| > 1 then
          if c.Branch? then GetChild(c, keys[1..]) else Failure(NotANode)
        else if c.Leaf? then Success(c.series)
        else Failure(NotIndexedSeries)
  }

  /** Reference walk: the node reached by following `path`, if any. */
  function Lookup(n: Node, path: seq<Key>): Option<Node>
    decreases path
  {
    if |path| == 0 then Some(n)
    else if !n.Branch? || path[0] !in n.children then None
    else Lookup(n.children[path[0]], path[1..])
  }

  function Names(keys: seq<string>): (r: seq<Key>)
    ensures |r| == |keys| && forall i :: 0 <= i < |keys| ==> r[i] == Name(keys[i])
  {
    seq(|keys|, i requires 0 <= i < |keys| => Name(keys[i]))
  }

  /** `_get_child` succeeds exactly when the keys, read as dictionary keys,
      lead to an indexed-series leaf. */
  lemma {:induction false} GetChildIsLookup(n: Node, keys: seq<string>, s: Indexed.IndexedSeries)
    ensures GetChild(n, keys) == Success(s) <==> |keys| >= 1 && Lookup(n, Names(keys)) == Some(Leaf(s))
    decreases n
  {
    if n.Branch? && |keys| >= 1 && Name(keys[0]) in n.children {
      assert Names(keys)[1..] == Names(keys[1..]);
      var c := n.children[Name(keys[0])];
      if |keys| > 1 {
        assert Lookup(n, Names(keys)) == Lookup(c, Names(keys[1..]));
        if c.Branch? {
          GetChildIsLookup(c, keys[1..], s);
        } else {
          assert Names(keys[1..]) != [];
        }
      }
    }
  }

  /** Along a valid tree the label of the node reached is built from the
      labels of the keys followed. */
  function PathLabel(start: string, path: seq<Key>): string
    decreases path
  {
    if |path| == 0 then start else PathLabel(ChildLabel(start, path[0]), path[1..])
  }

  lemma {:induction false} LookupLabel(n: Node, path: seq<Key>, bound: nat)
    requires Valid(n, bound) && Lookup(n, path).Some?
    ensures Label(Lookup(n, path).value) == PathLabel(Label(n), path)
    ensures Valid(Lookup(n, path).value, bound)
    decreases path
  {
    if |path| > 0 {
      LookupLabel(n.children[path[0]], path[1..], bound);
    }
  }

  predicate PlainKey(k: Key)
  {
    KeyText(k) != "" && !EndsWith(KeyText(k), '/')
  }

  function Texts(path: seq<Key>): (r: seq<string>)
    ensures |r| == |path| && forall i :: 0 <= i < |path| ==> r[i] == KeyText(path[i])
  {
    seq(|path|, i requires 0 <= i < |path| => KeyText(path[i]))
  }

  /** Reading the texts of dictionary keys back as keys gives the path. */
  lemma NamesOfTexts(path: seq<Key>)
    requires forall i :: 0 <= i < |path| ==> path[i].Name?
    ensures Names(Texts(path)) == path
  {
  }

  lemma {:induction false} PathLabelBelow(q: string, path: seq<Key>)
    requires !EndsWith(q, '/') && |path| >= 1
    requires forall i :: 0 <= i < |path| ==> PlainKey(path[i])
    ensures PathLabel(q, path) == q + "/" + Join(Texts(path), "/")
    decreases path
  {
    var q' := q + "/" + KeyText(path[0]);
    assert ChildLabel(q, path[0]) == q';
    if |path| > 1 {
      assert EndsWith(q', '/') == EndsWith(KeyText(path[0]), '/');
      PathLabelBelow(q', path[1..]);
      assert Texts(path)[1..] == Texts(path[1..]);
    }
  }

  /** Under the root `/`, the label of the node reached by a path of plain
      keys (non-empty, not ending in `/`) is `/` followed by the keys joined
      by `/`. */
  lemma {:induction false} PathLabelFromRoot(path: seq<Key>)
    requires forall i :: 0 <= i < |path| ==> PlainKey(path[i])
    ensures PathLabel("/", path) == "/" + Join(Texts(path), "/")
  {
    if |path| > 0 {
      var t := KeyText(path[0]);
      assert ChildLabel("/", path[0]) == "/" + t;
      assert EndsWith("/" + t, '/') == EndsWith(t, '/');
      if |path| > 1 {
        PathLabelBelow("/" + t, path[1..]);
        assert Texts(path)[1..] == Texts(path[1..]);
      }
    }
  }

  /** Every dictionary key in the tree is non-empty and free of `/`: the
      keys a `/`-separated path can name one by one. */
  predicate CleanKeys(n: Node)
  {
    match n
    case Branch(_, children, _) =>
      forall k :: k in children ==> (k.Name? ==> k.name != "" && '/' !in k.name) && CleanKeys(children[k])
    case _ => true
  }

  lemma {:induction false} LookupClean(n: Node, path: seq<Key>)
    requires CleanKeys(n) && Lookup(n, path).Some?
    ensures forall i :: 0 <= i < |path| && path[i].Name? ==> path[i].name != "" && '/' !in path[i].name
    decreases path
  {
    if |path| > 0 {
      LookupClean(n.children[path[0]], path[1..]);
      forall i | 1 <= i < |path| ensures path[i] == path[1..][i - 1] { }
    }
  }

  // ---------------------------------------------------------------- _list_labels

  /** A key `_list_labels` descends into: a string not starting with `_`. */
  predicate Visible(k: Key)
  {
    k.Name? && !StartsWith(k.name, '_')
  }

  /** `_list_labels`: the labels of all leaves, depth first, in the order
      the children were discovered, skipping list positions and keys that
      start with `_`. */
  function ListLabels(n: Node): (r: seq<string>)
    ensures n.Leaf? || n.FrozenLeaf? ==> r == [Label(n)]
    decreases n, 1
  {
    match n
    case Leaf(s) => Indexed.ListLabels(s)
    // the `_list_labels` a frozen series inherits from the forward-filling one
    case FrozenLeaf(f) => [f.name]
    case Branch(_, _, _) => ListFrom(n, 0)
  }

  /** A label is listed from position `j` of the order on exactly when a
      visible child at a position `j` or later lists it. */
  function ListFrom(n: Node, j: nat): (r: seq<string>)
    requires n.Branch? && j <= |n.order|
    ensures forall i, l ::
      (j <= i < |n.order| && Visible(n.order[i]) && n.order[i] in n.children
       && l in ListLabels(n.children[n.order[i]])) ==> l in r
    ensures forall l :: l in r ==>
      exists i :: (j <= i < |n.order| && Visible(n.order[i])
        && n.order[i] in n.children && l in ListLabels(n.children[n.order[i]]))
    decreases n, 0, |n.order| - j
  {
    if j == |n.order| then []
    else
      var k := n.order[j];
      (if Visible(k) && k in n.children then ListLabels(n.children[k]) else [])
      + ListFrom(n, j + 1)
  }

  predicate IsLeaf(n: Node)
  {
    n.Leaf? || n.FrozenLeaf?
  }

  predicate VisiblePath(path: seq<Key>)
  {
    forall i :: 0 <= i < |path| ==> Visible(path[i])
  }

  /** Every listed label is the label of a leaf reachable through visible
      keys. */
  lemma {:induction false} ListedIsReachable(n: Node, l: string)
    requires l in ListLabels(n)
    ensures exists path :: (VisiblePath(path) && Lookup(n, path).Some?
      && IsLeaf(Lookup(n, path).value) && Label(Lookup(n, path).value) == l)
    decreases n, 1
  {
    if IsLeaf(n) {
      assert VisiblePath([]) && Lookup(n, []) == Some(n);
    } else {
      ListedFromIsReachable(n, 0, l);
    }
  }

  lemma {:induction false} ListedFromIsReachable(n: Node, j: nat, l: string)
    requires n.Branch? && j <= |n.order| && l in ListFrom(n, j)
    ensures exists path :: (VisiblePath(path) && Lookup(n, path).Some?
      && IsLeaf(Lookup(n, path).value) && Label(Lookup(n, path).value) == l)
    decreases n, 0, |n.order| - j
  {
    var k := n.order[j];
    if Visible(k) && k in n.children && l in ListLabels(n.children[k]) {
      var c := n.children[k];
      ListedIsReachable(c, l);
      var path :| VisiblePath(path) && Lookup(c, path).Some?
        && IsLeaf(Lookup(c, path).value) && Label(Lookup(c, path).value) == l;
      assert ([k] + path)[1..] == path;
      assert Lookup(n, [k] + path) == Lookup(c, path);
      assert VisiblePath([k] + path);
    } else {
      ListedFromIsReachable(n, j + 1, l);
    }
  }

  /** In a valid tree every leaf reachable through visible keys has its
      label listed. */
  lemma {:induction false} ReachableIsListed(n: Node, path: seq<Key>, bound: nat)
    requires Valid(n, bound)
    requires VisiblePath(path) && Lookup(n, path).Some? && IsLeaf(Lookup(n, path).value)
    ensures Label(Lookup(n, path).value) in ListLabels(n)
    decreases path
  {
    if |path| > 0 {
      var c := n.children[path[0]];
      ReachableIsListed(c, path[1..], bound);
      var p :| 0 <= p < |n.order| && n.order[p] == path[0];
      ListFromContains(n, 0, p, Label(Lookup(n, path).value));
    }
  }

  lemma {:induction false} ListFromContains(n: Node, j: nat, p: nat, l: string)
    requires n.Branch? && j <= p < |n.order|
    requires Visible(n.order[p]) && n.order[p] in n.children && l in ListLabels(n.children[n.order[p]])
    ensures l in ListFrom(n, j)
    decreases p - j
  {
    if j < p {
      ListFromContains(n, j + 1, p, l);
    }
  }
}

=== FILE: series.dfy ===
/** The forward-filling accumulator: a sparse map from step index to value
    whose read-out repeats the most recent write, seeded with `None`. */
module Filled {
  import opened Common
  import opened Values

  datatype Series = Series(name: string, data: map<nat, Value>)

  /** The latest written step at or before `i`, if any. */
  function LastWrite(data: map<nat, Value>, i: nat): (r: Option<nat>)
    ensures r.Some? ==> r.value <= i && r.value in data
    ensures r.Some? ==> forall k :: r.value < k <= i ==> k !in data
    ensures r.None? ==> forall k :: 0 <= k <= i ==> k !in data
  {
    if i in data then Some(i)
    else if i == 0 then None
    else LastWrite(data, i - 1)
  }

  /** Reference meaning of the fill: the value of the latest write at or
      before `i`, or `None` before the first write. */
  function FilledAt(data: map<nat, Value>, i: nat): Value
  {
    match LastWrite(data, i)
    case None => Null
    case Some(j) => data[j]
  }

  /** The read-out loop from step `i` on, carrying `last` the way the
      source carries `last_value`. */
  function FillFrom(data: map<nat, Value>, n: nat, i: nat, last: Value): (r: seq<Value>)
    requires i <= n
    requires i == 0 ==> last == Null
    requires i > 0 ==> last == FilledAt(data, i - 1)
    ensures |r| == n - i
    ensures forall k :: i <= k < n ==> r[k - i] == FilledAt(data, k)
    decreases n - i
  {
    if i == n then []
    else
      var v := if i in data then data[i] else last;
      [v] + FillFrom(data, n, i + 1, v)
  }

  /** The forward-filled read-out of `n` steps. The three facts below
      determine it entry by entry. */
  function Fill(data: map<nat, Value>, n: nat): (r: seq<Value>)
    ensures |r| == n
    ensures forall i :: 0 <= i < n && (forall k :: 0 <= k <= i ==> k !in data) ==> r[i] == Null
    ensures forall i :: 0 <= i < n && i in data ==> r[i] == data[i]
    ensures forall i :: 0 < i < n && i !in data ==> r[i] == r[i - 1]
  {
    var r := FillFrom(data, n, 0, Null);
    assert forall i :: 0 <= i < n ==> r[i] == FilledAt(data, i);
    r
  }

  /** `_get(n)`: the forward-filled read-out. */
  function Get(s: Series, n: nat): (r: seq<Value>)
    ensures |r| == n
    ensures forall i :: 0 <= i < n && (forall k :: 0 <= k <= i ==> k !in s.data) ==> r[i] == Null
    ensures forall i :: 0 <= i < n && i in s.data ==> r[i] == s.data[i]
    ensures forall i :: 0 < i < n && i !in s.data ==> r[i] == r[i - 1]
  {
    Fill(s.data, n)
  }

  /** The three facts of `Fill` pin the read-out down: any sequence that
      satisfies them is the read-out. */
  lemma {:induction false} FillUnique(data: map<nat, Value>, n: nat, r: seq<Value>)
    requires |r| == n
    requires forall i :: 0 <= i < n && (forall k :: 0 <= k <= i ==> k !in data) ==> r[i] == Null
    requires forall i :: 0 <= i < n && i in data ==> r[i] == data[i]
    requires forall i :: 0 < i < n && i !in data ==> r[i] == r[i - 1]
    ensures r == Fill(data, n)
  {
    var f := Fill(data, n);
    forall i | 0 <= i < n
      ensures r[i] == f[i]
    {
      FillAgrees(data, n, r, f, i);
    }
  }

  lemma {:induction false} FillAgrees(data: map<nat, Value>, n: nat, r: seq<Value>, f: seq<Value>, i: nat)
    requires |r| == n && |f| == n && i < n
    requires forall i :: 0 <= i < n && (forall k :: 0 <= k <= i ==> k !in data) ==> r[i] == Null && f[i] == Null
    requires forall i :: 0 <= i < n && i in data ==> r[i] == data[i] && f[i] == data[i]
    requires forall i :: 0 < i < n && i !in data ==> r[i] == r[i - 1] && f[i] == f[i - 1]
    ensures r[i] == f[i]
  {
    if i !in data && i > 0 {
      FillAgrees(data, n, r, f, i - 1);
    }
  }

  /** An explicit `None` write resets the fill: from that step until the
      next write, the read-out is `None`. */
  lemma {:induction false} NoneResets(s: Series, n: nat, i: nat, j: nat)
    requires i <= j < n
    requires i in s.data && s.data[i] == Null
    requires forall k :: i < k <= j ==> k !in s.data
    ensures Get(s, n)[j] == Null
  {
    if j > i {
      NoneResets(s, n, i, j - 1);
    }
  }

  /** `__len__`: the number of distinct written steps. */
  function Len(s: Series): (r: nat)
    ensures r == |s.data.Keys|
  {
    |s.data|
  }

  /** `_update`: the value at `index` is overwritten, nothing else changes. */
  function Update(s: Series, index: nat, v: Value): (r: Series)
    ensures r.name == s.name
    ensures r.data.Keys == s.data.Keys + {index}
    ensures r.data[index] == v
    ensures forall j :: j in s.data && j != index ==> r.data[j] == s.data[j]
  {
    Series(s.name, s.data[index := v])
  }

  /** The length grows by one for a new step and stays for an overwrite; it
      counts steps written, not the highest step. */
  lemma LenAfterUpdate(s: Series, index: nat, v: Value)
    ensures Len(Update(s, index, v)) == if index in s.data then Len(s) else Len(s) + 1
  {
    if index in s.data {
      assert s.data[index := v].Keys == s.data.Keys;
    } else {
      assert s.data[index := v].Keys == s.data.Keys + {index};
    }
  }
}

=== FILE: strings.dfy ===
/** The few Python string operations the library relies on:
    `str(int)`, `str.strip`, `str.split`, `str.join`. */
module Strings {

  predicate StartsWith(s: string, c: char)
  {
    |s| > 0 && s[0] == c
  }

  predicate EndsWith(s: string, c: char)
  {
    |s| > 0 && s[|s| - 1] == c
  }

  /** A string made only of the character `c`. */
  predicate AllOf(s: string, c: char)
  {
    forall k :: 0 <= k < |s| ==> s[k] == c
  }

  // ---------------------------------------------------------------- str(int)

  function DigitChar(d: nat): (ch: char)
    requires d < 10
    ensures '0' <= ch <= '9'
  {
    "0123456789"[d]
  }

  predicate IsDigit(ch: char)
  {
    '0' <= ch <= '9'
  }

  /** Decimal digits of a natural number, most significant first, no
      leading zero. */
  function NatToString(n: nat): (s: string)
    ensures |s| > 0
    ensures forall k :: 0 <= k < |s| ==> IsDigit(s[k])
    ensures |s| > 1 ==> s[0] != '0'
  {
    if n < 10 then [DigitChar(n)] else NatToString(n / 10) + [DigitChar(n % 10)]
  }

  /** Python's `str` on an `int`. */
  function IntToString(i: int): (s: string)
    ensures |s| > 0
    ensures i >= 0 <==> IsDigit(s[0])
    ensures i < 0 <==> s[0] == '-'
  {
    if i < 0 then "-" + NatToString(-i) else NatToString(i)
  }

  /** The value a string of decimal digits denotes: the partner of
      `NatToString`. */
  function DigitsValue(s: string): nat
    requires forall k :: 0 <= k < |s| ==> IsDigit(s[k])
  {
    if |s| == 0 then 0
    else
      assert IsDigit(s[|s| - 1]);
      10 * DigitsValue(s[..|s| - 1]) + (s[|s| - 1] as int - '0' as int)
  }

  lemma {:induction false} NatToStringRoundTrip(n: nat)
    ensures DigitsValue(NatToString(n)) == n
  {
    var s := NatToString(n);
    if n >= 10 {
      NatToStringRoundTrip(n / 10);
      assert s[..|s| - 1] == NatToString(n / 10);
      assert "0123456789"[n % 10] as int - '0' as int == n % 10;
    } else {
      assert "0123456789"[n] as int - '0' as int == n;
    }
  }

  /** Distinct numbers print differently. */
  lemma IntToStringInjective(i: int, j: int)
    requires IntToString(i) == IntToString(j)
    ensures i == j
  {
    if i < 0 {
      assert j < 0;
      NegativeDigits(i);
      NegativeDigits(j);
      NatToStringInjective(-i, -j);
    } else {
      assert j >= 0;
      NatToStringInjective(i, j);
    }
  }

  lemma NatToStringInjective(a: nat, b: nat)
    requires NatToString(a) == NatToString(b)
    ensures a == b
  {
    NatToStringRoundTrip(a);
    NatToStringRoundTrip(b);
  }

  lemma NegativeDigits(i: int)
    requires i < 0
    ensures IntToString(i)[1..] == NatToString(-i)
  {
  }

  // ---------------------------------------------------------------- str.strip

  /** `s` is some `c`s, then `r`, then some `c`s. */
  predicate Framed(s: string, r: string, c: char)
  {
    exists i :: 0 <= i <= |s| - |r| && AllOf(s[..i], c) && s[i..i + |r|] == r && AllOf(s[i + |r|..], c)
  }

  function StripLeft(s: string, c: char): (r: string)
    ensures !StartsWith(r, c)
    ensures |r| <= |s| && r == s[|s| - |r|..] && AllOf(s[..|s| - |r|], c)
  {
    if |s| > 0 && s[0] == c then
      var r := StripLeft(s[1..], c);
      assert s[..|s| - |r|] == [c] + s[1..][..|s| - 1 - |r|];
      r
    else
      s
  }

  function StripRight(s: string, c: char): (r: string)
    ensures !EndsWith(r, c)
    ensures |r| <= |s| && r == s[..|r|] && AllOf(s[|r|..], c)
  {
    if |s| > 0 && s[|s| - 1] == c then
      var r := StripRight(s[..|s| - 1], c);
      assert s[|r|..] == s[..|s| - 1][|r|..] + [c];
      r
    else
      s
  }

  /** Python's `s.strip(c)`: every leading and trailing `c` removed. */
  function Strip(s: string, c: char): (r: string)
    ensures !StartsWith(r, c) && !EndsWith(r, c)
  {
    var l := StripLeft(s, c);
    var r := StripRight(l, c);
    assert !StartsWith(r, c) by {
      if |r| > 0 { assert r[0] == l[0]; }
    }
    r
  }

  /** `strip` removes only leading and trailing `c`s: the rest of the
      string is kept, in place. */
  lemma StripFramed(s: string, c: char)
    ensures Framed(s, Strip(s, c), c)
  {
    var l := StripLeft(s, c);
    var r := StripRight(l, c);
    var i := |s| - |l|;
    assert s[i..] == l;
    assert s[i..i + |r|] == l[..|r|] == r;
    assert s[i + |r|..] == l[|r|..];
    assert AllOf(s[..i], c) && AllOf(s[i + |r|..], c);
  }

  lemma {:induction false} StripLeftLeading(s: string, c: char)
    ensures StripLeft([c] + s, c) == StripLeft(s, c)
  {
    assert ([c] + s)[1..] == s;
  }

  lemma {:induction false} StripRightTrailing(s: string, c: char)
    ensures StripRight(s + [c], c) == StripRight(s, c)
  {
    assert (s + [c])[..|s + [c]| - 1] == s;
  }

  /** A string with nothing to strip is its own strip. */
  lemma StripNothing(s: string, c: char)
    requires !StartsWith(s, c) && !EndsWith(s, c)
    ensures Strip(s, c) == s
  {
  }

  /** A leading separator makes no difference to `strip`. */
  lemma StripLeading(s: string, c: char)
    ensures Strip([c] + s, c) == Strip(s, c)
  {
    StripLeftLeading(s, c);
  }

  /** A trailing separator makes no difference to `strip`. */
  lemma {:induction false} StripTrailing(s: string, c: char)
    ensures Strip(s + [c], c) == Strip(s, c)
  {
    StripLeftAppend(s, c);
    if AllOf(s, c) {
      StripLeftAll(s, c);
      StripLeftAll(s + [c], c);
    } else {
      StripRightTrailing(StripLeft(s, c), c);
    }
  }

  lemma {:induction false} StripLeftAll(s: string, c: char)
    requires AllOf(s, c)
    ensures StripLeft(s, c) == []
  {
    if |s| > 0 {
      StripLeftAll(s[1..], c);
    }
  }

  lemma {:induction false} StripLeftAppend(s: string, c: char)
    ensures AllOf(s, c) || StripLeft(s + [c], c) == StripLeft(s, c) + [c]
  {
    if |s| > 0 && s[0] == c {
      assert (s + [c])[1..] == s[1..] + [c];
      StripLeftAppend(s[1..], c);
      if AllOf(s[1..], c) {
        assert AllOf(s, c) by {
          forall k | 0 <= k < |s| ensures s[k] == c {
            if k > 0 { assert s[k] == s[1..][k - 1]; }
          }
        }
      }
    }
  }

  // ---------------------------------------------------------------- str.split / str.join

  /** Python's `s.split(c)` with a one-character separator. */
  function Split(s: string, c: char): (parts: seq<string>)
    ensures |parts| >= 1
    ensures forall k :: 0 <= k < |parts| ==> c !in parts[k]
  {
    if |s| == 0 then [""]
    else
      var rest := Split(s[1..], c);
      if s[0] == c then [""] + rest
      else [[s[0]] + rest[0]] + rest[1..]
  }

  /** Python's `sep.join(parts)`. */
  function Join(parts: seq<string>, sep: string): string
  {
    if |parts| == 0 then ""
    else if |parts| == 1 then parts[0]
    else parts[0] + sep + Join(parts[1..], sep)
  }

  /** A join starts with its first piece and ends with its last. */
  lemma {:induction false} JoinEnds(parts: seq<string>, sep: string)
    requires |parts| >= 1
    ensures parts[0] <= Join(parts, sep)
    ensures var j := Join(parts, sep); var l := parts[|parts| - 1];
      |l| <= |j| && j[|j| - |l|..] == l
  {
    if |parts| > 1 {
      JoinEnds(parts[1..], sep);
      var j := Join(parts, sep);
      var rest := Join(parts[1..], sep);
      assert j == parts[0] + sep + rest;
      assert j[|j| - |rest|..] == rest;
    }
  }

  /** Joining the pieces of a split gives back the string. */
  lemma {:induction false} JoinSplit(s: string, c: char)
    ensures Join(Split(s, c), [c]) == s
  {
    if |s| > 0 {
      var rest := Split(s[1..], c);
      JoinSplit(s[1..], c);
      if s[0] == c {
        assert Join([""] + rest, [c]) == "" + [c] + Join(rest, [c]) by {
          assert ([""] + rest)[1..] == rest;
        }
      } else {
        var parts := [[s[0]] + rest[0]] + rest[1..];
        if |rest| == 1 {
          assert parts == [[s[0]] + rest[0]];
        } else {
          assert parts[1..] == rest[1..];
          assert Join(rest, [c]) == rest[0] + [c] + Join(rest[1..], [c]);
        }
      }
    }
  }

  /** Splitting a join of separator-free pieces gives back the pieces. */
  lemma {:induction false} SplitJoin(parts: seq<string>, c: char)
    requires |parts| >= 1
    requires forall k :: 0 <= k < |parts| ==> c !in parts[k]
    ensures Split(Join(parts, [c]), c) == parts
  {
    if |parts| == 1 {
      SplitFree(parts[0], c);
    } else {
      SplitJoin(parts[1..], c);
      SplitAfter(parts[0], c, Join(parts[1..], [c]));
    }
  }

  lemma {:induction false} SplitFree(s: string, c: char)
    requires c !in s
    ensures Split(s, c) == [s]
  {
    if |s| > 0 {
      SplitFree(s[1..], c);
      assert [s[0]] + s[1..] == s;
    }
  }

  lemma {:induction false} SplitAfter(p: string, c: char, t: string)
    requires c !in p
    ensures Split(p + [c] + t, c) == [p] + Split(t, c)
  {
    if |p| == 0 {
      assert (p + [c] + t)[1..] == t;
    } else {
      assert (p + [c] + t)[1..] == p[1..] + [c] + t;
      SplitAfter(p[1..], c, t);
      assert [p[0]] + p[1..] == p;
    }
  }
}

=== FILE: values.dfy ===
/** Decoded records: the JSON-compatible values the library ingests, and the
    keys under which a record's parts are found. */
module Values {
  import opened Floats
  import opened Strings

  /** A child key: a dictionary key, or the position of a list element
      (Python's `enumerate` yields an `int`). */
  datatype Key = Name(name: string) | Index(index: nat)

  datatype Value =
    | Null
    | Bool(b: bool)
    | Int(i: int)
    | Float(x: Floats.Float)
    | Str(s: string)
    | Dict(entries: seq<(string, Value)>)   // in insertion order
    | List(items: seq<Value>)

  /** Dictionaries and lists are the values a branch iterates over. */
  predicate IsComposite(v: Value)
  {
    v.Dict? || v.List?
  }

  /** The `(key, value)` pairs iterating a composite value yields:
      `dict.items()` for a dictionary, `enumerate` for a list. */
  function Items(v: Value): (r: seq<(Key, Value)>)
    requires IsComposite(v)
    ensures v.Dict? ==> |r| == |v.entries| && forall q :: 0 <= q < |r| ==> r[q] == (Name(v.entries[q].0), v.entries[q].1)
    ensures v.List? ==> |r| == |v.items| && forall q :: 0 <= q < |r| ==> r[q] == (Index(q), v.items[q])
    ensures forall q :: 0 <= q < |r| ==> r[q].1 < v
  {
    if v.Dict? then seq(|v.entries|, q requires 0 <= q < |v.entries| => (Name(v.entries[q].0), v.entries[q].1))
    else seq(|v.items|, q requires 0 <= q < |v.items| => (Index(q), v.items[q]))
  }

  /** Some pair of `items` has key `k`. */
  predicate HasKey(items: seq<(Key, Value)>, k: Key)
  {
    |items| > 0 && (items[0].0 == k || HasKey(items[1..], k))
  }

  /** No key occurs twice: Python dictionaries never repeat a key and list
      positions never repeat. */
  predicate DistinctItems(items: seq<(Key, Value)>)
  {
    forall i, j :: 0 <= i < j < |items| ==> items[i].0 != items[j].0
  }

  /** A list's pairs always have distinct keys. */
  lemma ListItemsDistinct(v: Value)
    requires v.List?
    ensures DistinctItems(Items(v))
  {
  }

  /** `HasKey` is membership among the keys. */
  lemma {:induction false} HasKeyAt(items: seq<(Key, Value)>, k: Key)
    ensures HasKey(items, k) <==> exists q :: 0 <= q < |items| && items[q].0 == k
    decreases |items|
  {
    if |items| > 0 {
      HasKeyAt(items[1..], k);
      if HasKey(items[1..], k) {
        var q :| 0 <= q < |items[1..]| && items[1..][q].0 == k;
        assert items[q + 1].0 == k;
      }
      if items[0].0 != k && exists q :: 0 <= q < |items| && items[q].0 == k {
        var q :| 0 <= q < |items| && items[q].0 == k;
        assert items[1..][q - 1].0 == k;
      }
    }
  }

  /** The text a key contributes to a label: `f"{key}"`. */
  function KeyText(k: Key): string
  {
    match k
    case Name(s) => s
    case Index(i) => NatToString(i)
  }
}
